=== FILE: README.md ===
# Ableton Live project recovery scanners, modelled in Dafny

The repository holds five generations of one Python script. Each walks a
directory tree, picks out Ableton Live sets (`.als`), Live packs and projects
(`.alp`) and files whose names contain user keywords, and copies them to an
output directory. The generations differ in four places:

- how a file is recognised: by name, by the `<Ableton Live Set` text
  marker, or by the 8-byte ZIP local file header `PK\x03\x04\x14\x00\x00\x00`;
- which signal wins when several match;
- how the tree is split among worker processes and the results merged;
- where a file is copied to, and what a failed copy does to the rest of the run.

The model treats each script as pure functions over an immutable tree.

- **Tree (`tree.dfy`).** A `Dir` has a name, a readable flag, files and
  subdirectories. A `File` has a name, a readable flag and `seq<byte>`
  content. `Walk` is a top-down `os.walk` that prunes unreadable
  directories but still lists unreadable files.
- **Copying (`copying.dfy`).** A copy is an oracle `(src, dst) -> bool`.
- **Worker pools.** A pool either fails or hands its results back in a
  completion order chosen by a `picks` sequence (`Buckets.Schedule`).
  `Buckets.ScheduleCovers` proves that every order arises from some `picks`.

The modules are:

- `basics.dfy`: bytes, `startswith` and `endswith`, substring search, ASCII
  lower-casing.
- `tree.dfy`: the tree and the walk.
- `paths.dfy`: flat destinations and `relpath`.
- `header.dfy`: the two header sniffers.
- `keywords.dfy`: the two keyword tests.
- `buckets.dfy`: the three result lists, the scan fold, the merge and the
  pool schedule.
- `partition.dfy`: the scan roots.
- `copying.dfy`: the flat save loops.
- `recover1.dfy` to `recover5.dfy`: one module per script.
- `RecoverV5Example` (in `recover5.dfy`): a worked three-file run.

### How `recover_als_files5.py` sorts a file

The code (recover_als_files5.py:74-84) decides by the header first:

- A file whose header matches goes to `alp` when its lower-cased name ends
  in `.alp`, and to `als` otherwise. So a ZIP-magic file whose name does
  not end in `.alp`, such as `mix.zip`, lands in `als`
  (`RecoverV5Example.ExampleScan`).
- A marker file named `*.alp` lands in `alp`.
- An extension without a header match never classifies a file. Such a
  file can only reach the `keyword` list.

## Model

| member | source | states |
|---|---|---|
| Basics.StartsWith | recovery_als_files4.py:14 | `startswith`: the sequence opens with every element of the prefix, in order |
| Basics.EndsWith | recover_als_files.py:8 | `endswith`: the last elements of the sequence are those of the suffix, in order |
| Basics.Contains | recovery_als_files4.py:14 | `pat in s` is true exactly when some offset of `s` holds a contiguous copy of `pat` |
| Basics.InfixOfPrefix | recover_als_files5.py:26-27 | the marker occurs in an `n`-byte read exactly when it occurs in the whole content ending at or before byte `n` |
| Basics.Lower | recover_als_files5.py:72 | `str.lower()` on ASCII: the same length, each letter `A`-`Z` becomes its lower-case letter (code point plus 32), and every other character is unchanged |
| Basics.LowerIsIdempotent | recover_als_files5.py:72 | lower-casing is idempotent and leaves no ASCII upper-case letter |
| Tree.Walk | recover_als_files5.py:48-57 | top-down `os.walk`: every entry lies strictly below the start, is named by its file, and an unreadable directory yields nothing |
| Tree.WalkAll | recover_als_files.py:6-7 | the walks of sibling subdirectories, in listing order: every entry lies strictly below the parent |
| Tree.WalkIsVisible | recover_als_files5.py:48-57 | the walk yields exactly the files reachable from the start through readable directories |
| Tree.UnreadableSubtreeIsPruned | recover_als_files5.py:50-57 | an unreadable subdirectory contributes nothing and every sibling is walked as if it were absent |
| Tree.Select | recover_als_files.py:6-12 | a path is collected exactly when some walked entry with that path passes the test; no more paths than entries |
| Tree.SelectOne | recover_als_files.py:7-9 | one walked file contributes its path exactly when it passes the test, and nothing otherwise |
| Tree.SelectAppend | recover_als_files.py:6-12 | the loop keeps walk order: the paths selected from two walks in sequence are those of the first followed by those of the second |
| Paths.Basename | recover_als_files.py:20 | `os.path.basename` on a component list: empty for the empty path |
| Paths.BasenameOfJoin | recover_als_files.py:19-21 | the basename of `os.path.join(dir, name)` is `name`, whatever the directory |
| Paths.FlatDestination | recovery_als_files4.py:54-55 | `output_dir/basename`: directly inside the output directory, with the source's basename |
| Paths.FlatDestinationsCollide | recovery_als_files4.py:54-55 | two flat destinations are equal exactly when the sources' basenames are equal, whatever directories they came from |
| Paths.RelPath | recover_als_files5.py:67 | `os.path.relpath` on normalised paths: never empty, and for a path strictly below the base exactly the remaining suffix of components |
| Paths.Rebase | recover_als_files5.py:67-68 | the output directory's components are a proper prefix of every destination; for a source below the scan base the destination is the output directory followed by the source's components below that base |
| Paths.RebaseRoundTrip | recover_als_files5.py:67-68 | a destination lies strictly below the output base; stripping that base gives the source's relative path, and prepending the scan base gives the source back |
| Paths.RebaseInjective | recover_als_files5.py:67-68 | distinct sources below the scan base get distinct destinations |
| Header.ReadHeader | recovery_als_files4.py:11-16 | `f.read(n)` inside the catch-all: fails exactly when the file cannot be opened; otherwise `min(n, size)` bytes that are a prefix of the content |
| Header.MarkerOrMagic | recovery_als_files4.py:9-16 | true exactly when the file is readable and the marker ends within the first `n` bytes or the content begins with the ZIP magic; a failed read gives false |
| Header.ExactMagic | recover_als_files2.py:14-21 | true exactly when the file is readable and its first eight bytes are the ZIP magic; shorter files never match |
| Keywords.AnyNonEmpty | recover_als_files5.py:72 | true exactly when some non-empty keyword, lower-cased, is a substring of the lower-cased name; a list of only empty keywords never matches |
| Keywords.AnyKeyword | recovery_als_files3.py:37 | true exactly when some keyword, lower-cased, is a substring of the lower-cased name; an empty keyword matches every name |
| Keywords.GuardOnlyDropsEmptyKeywords | recover_als_files5.py:72 | the `if k` guard can only remove matches, and without an empty keyword both tests agree |
| Keywords.MatchIgnoresNameCase | recovery_als_files3.py:37 | lower-casing the file name first changes neither keyword test |
| Buckets.Bucketize | recovery_als_files4.py:29-39 | after the scan loop an item is in list `c` exactly when some entry was tagged with `c` and that item; the lists hold one item per tagged entry |
| Buckets.BucketizeAppend | recovery_als_files4.py:24-39 | scanning two walks one after the other gives the per-list concatenation of the two scans |
| Buckets.Merge | recover_als_files5.py:187-192 | per-list concatenation of the results, whose total is the sum of the results' totals (`total_found`) |
| Buckets.MergeMembers | recovery_als_files4.py:71-75 | an item is in a merged list exactly when some worker result holds it in that list |
| Buckets.MergeKeepsResultOrder | recovery_als_files4.py:71-75 | the `i`-th result's list sits, unchanged, between the merge of the results before it and the merge of those after it |
| Buckets.Schedule | recover_als_files5.py:175 | the `imap_unordered` completion order: one result per task |
| Buckets.ScheduleIsPermutation | recover_als_files5.py:175 | whatever the completion order, the pool returns every task's result exactly once |
| Buckets.MergeScheduled | recover_als_files5.py:175-190 | merging in completion order gives each list the same items as many times each as merging in task order, and the same total |
| Buckets.ScheduleCovers | recover_als_files5.py:175 | every rearrangement of the tasks is the completion order of some `picks` |
| Buckets.ScheduleWithoutPicks | recover_als_files5.py:175 | with no picks the tasks complete in submission order |
| Partition.ScanRoots | recover_als_files5.py:159-164 | an unreadable scan directory ends the run; otherwise one root per subdirectory, or the scan directory alone when it has none |
| Partition.PartitionCoverage | recovery_als_files4.py:64-66 | the roots together walk exactly the subdirectories' subtrees, or the whole scan directory when there are no subdirectories |
| Partition.DirectFilesSkippedWhenSubdirsExist | recover_als_files5.py:159-166 | a file directly in the scan directory is walked exactly when the scan directory has no subdirectory |
| Partition.WalkRootsBelow | recover_als_files5.py:159-166 | every entry any root walks lies strictly below the scan directory |
| Partition.MergeOfWorkers | recovery_als_files4.py:68-75 | scanning each root separately and merging in root order equals one scan over all the roots' walks |
| Copying.SaveUntilFailure | recover_als_files.py:14-24 | the copies attempted are the files in order, each to `output_dir/basename`, up to and including the first failure; all before the last succeeded |
| Copying.SaveEach | recovery_als_files4.py:47-60 | one attempt per file, in order, each to `output_dir/basename` with the oracle's outcome for that copy; a failure does not stop the loop, so later files keep their own outcomes |
| Copying.UntilFailureFacts | recover_als_files2.py:28-33 | an unguarded save of a non-empty list tries files in list order, every one before the last succeeded, and an early stop is a failure |
| Copying.UntilFailureIsPrefixOfEach | recovery_als_files3.py:48-53 | the unguarded loop performs a prefix of the guarded loop's copies, and all of them exactly when no copy before the last fails |
| Copying.CountTrue | recover_als_files5.py:218-219 | the number of successes is the multiplicity of `true`, and successes plus failures is the number of results |
| Copying.SaveIfFound | recover_als_files2.py:25-49 | nothing is saved exactly when nothing was found; otherwise the output directory is created only when missing and the found list is copied until the first failure |
| RecoverV1.ScanForAls | recover_als_files.py:3-12 | exactly the walked paths whose name ends in `.als`; each is the walk root joined with the file name |
| RecoverV1.ScanIgnoresContent | recover_als_files.py:8 | emptying every file and revoking every file's read access leaves the collected list unchanged |
| RecoverV1.Run | recover_als_files.py:14-40 | nothing is saved exactly when nothing was found; otherwise the attempts are the unguarded flat save of the scan: files in scan order to `output_dir/basename`, each with the oracle's outcome, all before the last succeeded, an early stop on a failure |
| RecoverV2.IsCollected | recover_als_files2.py:8 | true exactly when the name ends in `.als`, or the file can be read and its content begins with the ZIP magic |
| RecoverV2.ScanForAls | recover_als_files2.py:3-12 | a walked file is collected exactly when its name ends in `.als` or it is readable and begins with the ZIP magic |
| RecoverV2.UnreadableCollectedByNameOnly | recover_als_files2.py:8 | an unreadable file is collected exactly when its name ends in `.als` |
| RecoverV2.Run | recover_als_files2.py:23-49 | nothing is saved exactly when nothing was found; otherwise the attempts are the unguarded flat save of the scan, in scan order, stopping at the first failure |
| RecoverV3.ScanByKeywords | recovery_als_files3.py:24-41 | exactly the walked paths whose name matches some keyword, with no empty-keyword guard |
| RecoverV3.ConfiguredKeywordsMatchEverything | recovery_als_files3.py:61 | with the configured list, which ends in `""`, every walked file matches |
| RecoverV3.Dedup | recovery_als_files3.py:69 | no element twice, each element of the input exactly once, and membership unchanged |
| RecoverV3.Combine | recovery_als_files3.py:69 | whatever order the set iterates in, each path of either list exactly once and nothing else |
| RecoverV3.Run | recovery_als_files3.py:55-76 | nothing is saved exactly when the combined list is empty; otherwise the combined list, in the set's order, is copied until the first failure |
| RecoverV3.ConfiguredRunTakesEveryFile | recovery_als_files3.py:61-76 | with the configured keywords, in any set order, the combined list is every walked path once, and the run saves nothing exactly when the walk is empty |
| RecoverV4.IsAlsOrAlpFile | recovery_als_files4.py:9-16 | the marker within the first 100 bytes, or the ZIP magic at the start; a failed read gives false |
| RecoverV4.Classify | recovery_als_files4.py:29-39 | `.als` (case-sensitive) with a header match is `als`; otherwise `.alp` with a match is `alp`; otherwise any keyword gives `keyword`; an empty keyword always gives some list |
| RecoverV4.ScanForFiles | recovery_als_files4.py:18-45 | a walked path is in list `c` exactly when its file classifies as `c` |
| RecoverV4.EmptyKeywordListsEveryFile | recovery_als_files4.py:37 | with an empty keyword every walked file is listed exactly once |
| RecoverV4.ParallelScan | recovery_als_files4.py:62-77 | fails exactly when the scan directory is unreadable or the pool fails; otherwise equals one scan over every root's walk in root order |
| RecoverV4.ParallelScanKeepsRootOrder | recovery_als_files4.py:69-75 | each root's lists sit in the merged lists between those of the earlier and the later roots |
| RecoverV4.SaveCategory | recovery_als_files4.py:89-94 | a list is saved exactly when it is non-empty, once, into its own subdirectory |
| RecoverV4.SaveAll | recovery_als_files4.py:89-94 | a list has a save exactly when it is non-empty; each goes to its own subdirectory, created when missing; every found file is tried exactly once |
| RecoverV4.Main | recovery_als_files4.py:79-102 | the run ends before saving exactly when the scan directory is unreadable or the pool fails; otherwise it finds the reference scan and makes exactly the saves of `SaveAll`, trying every found file once |
| RecoverV5.IsAlsOrAlpFile | recover_als_files5.py:21-37 | the marker within the first 256 bytes, or the ZIP magic at the start; an unreadable file gives false |
| RecoverV5.Classify | recover_als_files5.py:70-88 | a header match gives `alp` exactly when the lower-cased name ends in `.alp`, and `als` otherwise; without one, a non-empty keyword gives `keyword`, else nothing |
| RecoverV5.HeaderDecidesFormat | recover_als_files5.py:74-88 | without a header match no extension yields `als` or `alp`; with one, keywords play no part |
| RecoverV5.Tagger | recover_als_files5.py:59-88 | a file failing `os.access` is skipped; otherwise it is tagged with its classification and its source and rebased destination, and nothing else is tagged |
| RecoverV5.ScanWorker | recover_als_files5.py:39-98 | list `c` holds exactly the candidates of readable walked files classified `c`, each with its rebased destination; an unreadable root yields nothing |
| RecoverV5.ReferenceScan | recover_als_files5.py:159-166 | fails exactly when the scan directory cannot be listed |
| RecoverV5.ScanPhase | recover_als_files5.py:157-183 | the scan fails exactly when the scan directory is unreadable or a requested pool fails |
| RecoverV5.ScanPhaseMatchesReference | recover_als_files5.py:170-192 | run sequentially, the scan equals one pass over all roots; on a pool, each list holds the same candidates the same number of times, and the total is the same |
| RecoverV5.ReferenceScanFinds | recover_als_files5.py:59-88 | the found candidates are exactly the readable walked files with their classification; no more than one per walked entry |
| RecoverV5.FoundCandidate | recover_als_files5.py:60-68 | every candidate's source lies below the scan directory and its destination is the rebased source |
| RecoverV5.DestinationsPreserveStructure | recover_als_files5.py:67-68 | every destination lies below the output directory and recovers its source; equal destinations mean equal sources |
| RecoverV5.UnreadableContributesNothing | recover_als_files5.py:48-57 | a worker's lists with an unreadable subdirectory below its root are exactly its lists with that subdirectory taken away |
| RecoverV5.ToSave | recover_als_files5.py:200 | the copy list has `total_found` entries and holds each found candidate as often as the three lists do together |
| RecoverV5.UsesSavePool | recover_als_files5.py:204 | a pool is used only with at least two processes and more files than processes, so never with fewer than three files or with one process |
| RecoverV5.SequentialOutcomes | recover_als_files5.py:213-216 | one outcome per candidate in list order, true exactly at the indices whose copy succeeds |
| RecoverV5.SaveResults | recover_als_files5.py:204-216 | a failed save pool reports the single `False`; otherwise the results are the sequential outcomes in some order, and without a pool exactly the sequential outcomes in list order |
| RecoverV5.Count | recover_als_files5.py:218-219 | successes plus failures is the length of the copy list; a failed pool reports no success; otherwise successes are the candidates whose copy succeeds, whatever the completion order |
| RecoverV5.SuccessesAreSucceedingCopies | recover_als_files5.py:212-218 | the number of true outcomes in list order is the number of candidates whose copy succeeds |
| RecoverV5.Main | recover_als_files5.py:155-222 | aborts exactly when the scan fails, finds nothing exactly when the total is zero, and otherwise copies `als + alp + keyword` with the tally of `Count`: successes are the oracle's successful copies, and the counts add up |
| RecoverV5Example.ExampleClassification | recover_als_files5.py:70-88 | the marker file is `als`, the ZIP-magic `mix.zip` is `als`, and `demo_somni.wav` is `keyword` for `Somni` |
| RecoverV5Example.ExampleScan | recover_als_files5.py:157-192 | the three-file tree scans to exactly those three candidates, each mirrored under `out` |
| RecoverV5Example.Example | recover_als_files5.py:155-220 | the three-file run finishes with those candidates and a tally of three successes and no failure when every copy succeeds |

## Left out

- Real file I/O is not modelled: `open`/`read`, `shutil.copy2` and its metadata, `os.makedirs`. A file's content is a byte sequence, and a copy is an oracle that says whether it succeeds. The oracle is not tied to a file's readable flag. v1 and v2 can list an unreadable file, and the model lets its copy succeed. No stated property depends on that combination.
- The `os.walk` and `os.access` internals are not modelled: symbolic links, the listing errors `os.walk` ignores, and read versus execute permission. Each directory and file carries one readable flag, and a file that passes `os.access` is assumed readable by `open` as well.
- Python's set iteration order is not computed. It is a parameter `order` of `RecoverV3.Combine` and `RecoverV3.Run`, and every order is reachable (`Buckets.ScheduleCovers`).
- `multiprocessing.Pool`, `starmap`, `imap_unordered` and `freeze_support` are not modelled. A pool either fails or completes its tasks in the order a `picks` sequence selects. `starmap` keeps task order, so `RecoverV4.ParallelScan` merges in root order.
- Argument parsing, logging levels, `tqdm` progress bars, every `print` and logging call, and the "Likely Ableton Project" message (recovery_als_files4.py:26-27) have no effect on which files are found or copied, so they are not modelled.
- The output-directory validation in `main` (recover_als_files5.py:115-146) is not modelled. `RecoverV5.Main` starts after that validation has succeeded, and `numProcesses` stands for the value chosen from `--processes` and `--no-parallel`.
- `KeyboardInterrupt` is not modelled. Catch-all handlers appear only through their effect: "the header test is false", "the copy failed", or "the run ends".
- Lower-casing covers ASCII letters only. Python's Unicode case mapping is not modelled.
- RecoverV4.SaveAll: a failing `os.makedirs` of a category subdirectory is not modelled. That error escapes the save loop's handler and ends the run. `created` only records whether the directory was missing.
- Paths.Rebase: "below the output directory" is a fact about component prefixes. `..` is not resolved, so a source outside the scan base would get a destination that starts with the output directory but leads out of it. Every source the program rebases lies below the scan directory (`RecoverV5.FoundCandidate`).
- RecoverV1.Run, RecoverV2.Run and RecoverV3.Run: the initial `os.makedirs` of the output directory is assumed to succeed.
- RecoverV5.ScanWorker: errors raised by the classifier itself (recover_als_files5.py:90-91), other than a failed header read, are not modelled.
- The hard-coded values of the first four scripts are parameters of the model. These are the scan directory `C:\`, the output directory `C:\Recovered_Ableton_Files` (recover_als_files.py:30, recover_als_files2.py:39, recovery_als_files4.py:82) or `C:\Recovered_Ableton_Files_Advanced_Custom` (recovery_als_files3.py:59), and the keyword list `["homeless transfer"]` of recovery_als_files4.py:83. The worker count `cpu_count()` plays no part, because `starmap` keeps task order. `RecoverV3.ConfiguredKeywords` does fix the keyword list of recovery_als_files3.py:61.
- The configured output directories lie inside the scanned tree `C:\`, and the model does not exclude an output path below the scan path. The tree is a snapshot, and every script finishes its scan before the first copy, so copies made in a run are never scanned by that run. Files left by an earlier run are ordinary files of the tree and are found again.

=== FILE: basics.dfy ===
/** Bytes, ASCII text and the sequence searches every scanner relies on:
    Python's `startswith`, `endswith`, the `in` operator on `str` and `bytes`,
    and `str.lower()` restricted to ASCII letters. */
module Basics {

  newtype byte = x: int | 0 <= x < 256

  datatype Option<T> = None | Some(value: T)

  function Min(a: int, b: int): int {
    if a <= b then a else b
  }

  /** `s.startswith(prefix)`: `s` opens with every element of `prefix`, in
      order. */
  function StartsWith<T(==)>(s: seq<T>, prefix: seq<T>): (r: bool)
    ensures r <==> |prefix| <= |s| && forall i :: 0 <= i < |prefix| ==> s[i] == prefix[i]
  {
    |prefix| <= |s| && s[..|prefix|] == prefix
  }

  /** `s.endswith(suffix)`: the last `|suffix|` elements of `s` are those of
      `suffix`, in order. */
  function EndsWith<T(==)>(s: seq<T>, suffix: seq<T>): (r: bool)
    ensures r <==> |suffix| <= |s| && forall i :: 0 <= i < |suffix| ==> s[|s| - |suffix| + i] == suffix[i]
  {
    |suffix| <= |s| && s[|s| - |suffix|..] == suffix
  }

  /** `pat` sits contiguously in `s` starting at offset `i`. */
  ghost predicate OccursAt<T>(pat: seq<T>, s: seq<T>, i: nat) {
    i + |pat| <= |s| && s[i..i + |pat|] == pat
  }

  /** The reference meaning of `pat in s`: some offset holds a copy of `pat`. */
  ghost predicate IsInfix<T>(pat: seq<T>, s: seq<T>) {
    exists i: nat :: OccursAt(pat, s, i)
  }

  /** Peeling the first element off `s`: `pat` occurs in `s` iff it is a
      prefix of `s` or occurs in the rest. */
  lemma {:induction false} InfixStep<T>(pat: seq<T>, s: seq<T>)
    requires |s| > 0
    ensures IsInfix(pat, s) <==> (|pat| <= |s| && s[..|pat|] == pat) || IsInfix(pat, s[1..])
  {
    if IsInfix(pat, s) {
      var i: nat :| OccursAt(pat, s, i);
      if i > 0 {
        assert s[1..][i - 1..i - 1 + |pat|] == s[i..i + |pat|];
        assert OccursAt(pat, s[1..], i - 1);
      }
    }
    if IsInfix(pat, s[1..]) {
      var j: nat :| OccursAt(pat, s[1..], j);
      assert s[1..][j..j + |pat|] == s[j + 1..j + 1 + |pat|];
      assert OccursAt(pat, s, j + 1);
    }
    if |pat| <= |s| && s[..|pat|] == pat {
      assert OccursAt(pat, s, 0);
    }
  }

  /** `pat in s` for Python `str` and `bytes`: try each offset from the left. */
  function Contains<T(==)>(s: seq<T>, pat: seq<T>): (r: bool)
    ensures r <==> IsInfix(pat, s)
    decreases |s|
  {
    if |s| == 0 then
      assert |pat| == 0 ==> OccursAt(pat, s, 0);
      |pat| == 0
    else
      InfixStep(pat, s);
      StartsWith(s, pat) || Contains(s[1..], pat)
  }

  /** The empty pattern occurs in every sequence (`"" in s` is always true). */
  lemma EmptyIsInfix<T>(s: seq<T>)
    ensures IsInfix([], s)
  {
    assert OccursAt([], s, 0);
  }

  /** Occurrences inside the first `n` elements of `s` are exactly the
      occurrences in `s` that end at or before `n`. */
  lemma {:induction false} InfixOfPrefix<T>(pat: seq<T>, s: seq<T>, n: nat)
    ensures IsInfix(pat, s[..Min(n, |s|)]) <==> exists i: nat :: i + |pat| <= n && OccursAt(pat, s, i)
  {
    var h := s[..Min(n, |s|)];
    if IsInfix(pat, h) {
      var i: nat :| OccursAt(pat, h, i);
      assert h[i..i + |pat|] == s[i..i + |pat|];
      assert OccursAt(pat, s, i);
    }
    if exists i: nat :: i + |pat| <= n && OccursAt(pat, s, i) {
      var i: nat :| i + |pat| <= n && OccursAt(pat, s, i);
      assert h[i..i + |pat|] == s[i..i + |pat|];
      assert OccursAt(pat, h, i);
    }
  }

  /** ASCII `str.lower()` on one character. */
  function LowerChar(c: char): char {
    if 'A' <= c <= 'Z' then (c as int + 32) as char else c
  }

  /** `s.lower()`, restricted to ASCII letters. */
  function Lower(s: string): (r: string)
    ensures |r| == |s|
    ensures forall i :: 0 <= i < |r| ==> !('A' <= r[i] <= 'Z')
    ensures forall i :: 0 <= i < |s| && !('A' <= s[i] <= 'Z') ==> r[i] == s[i]
    ensures forall i :: 0 <= i < |s| && 'A' <= s[i] <= 'Z' ==> r[i] == (s[i] as int + 32) as char
  {
    seq(|s|, i requires 0 <= i < |s| => LowerChar(s[i]))
  }

  /** Lower-casing twice changes nothing more, and no upper-case ASCII letter
      survives it. */
  lemma LowerIsIdempotent(s: string)
    ensures Lower(Lower(s)) == Lower(s)
    ensures forall i :: 0 <= i < |s| ==> !('A' <= Lower(s)[i] <= 'Z')
  {
  }
}

=== FILE: buckets.dfy ===
/** The three result lists the later scanners keep (`als`, `alp`,
    `keyword`), the walk-order fold that fills them, the per-category merge of
    several scan results, and the completion order of a worker pool. */
module Buckets {
  import opened Basics

  datatype Category = Als | Alp | Keyword

  datatype Buckets<T> = Buckets(als: seq<T>, alp: seq<T>, keyword: seq<T>) {

    function Get(c: Category): seq<T> {
      match c
      case Als => als
      case Alp => alp
      case Keyword => keyword
    }

    /** `found[c].append(x)` */
    function Add(c: Category, x: T): Buckets<T> {
      match c
      case Als => this.(als := als + [x])
      case Alp => this.(alp := alp + [x])
      case Keyword => this.(keyword := keyword + [x])
    }

    /** `found[c].extend(other[c])` for every category. */
    function Extend(other: Buckets<T>): Buckets<T> {
      Buckets(als + other.als, alp + other.alp, keyword + other.keyword)
    }

    /** `sum(len(v) for v in found.values())` */
    function Total(): nat {
      |als| + |alp| + |keyword|
    }
  }

  function Empty<T>(): Buckets<T> {
    Buckets([], [], [])
  }

  /** What a classifier decides for one walked entry: the bucket and the item
      to append there. */
  datatype Tag<T> = Tag(cat: Category, item: T)

  /** How many entries the classifier keeps. */
  function TaggedCount<E, T>(es: seq<E>, tag: E -> Option<Tag<T>>): (n: nat)
    ensures n <= |es|
  {
    if es == [] then 0
    else TaggedCount(es[..|es| - 1], tag) + (if tag(es[|es| - 1]).Some? then 1 else 0)
  }

  /** One step of the scan loop: append the tagged item, or do nothing. */
  function Apply<T>(r: Buckets<T>, t: Option<Tag<T>>): Buckets<T> {
    match t
    case None => r
    case Some(Tag(c, x)) => r.Add(c, x)
  }

  /** The scan loop: visit the entries in walk order and append each kept one
      to the bucket its tag names. Every kept entry lands in exactly one
      bucket, and nothing else is ever added. */
  function Bucketize<E(!new), T(!new)>(es: seq<E>, tag: E -> Option<Tag<T>>): (r: Buckets<T>)
    ensures forall c, x :: x in r.Get(c) <==> exists e :: e in es && tag(e) == Some(Tag(c, x))
    ensures r.Total() == TaggedCount(es, tag)
  {
    if es == [] then Empty()
    else
      var init := es[..|es| - 1];
      var last := es[|es| - 1];
      var r0 := Bucketize(init, tag);
      SplitLast(es);
      ApplyFacts(r0, tag(last));
      Apply(r0, tag(last))
  }

  lemma ApplyFacts<T>(r: Buckets<T>, t: Option<Tag<T>>)
    ensures forall c, x :: x in Apply(r, t).Get(c) <==> x in r.Get(c) || t == Some(Tag(c, x))
    ensures Apply(r, t).Total() == r.Total() + if t.Some? then 1 else 0
  {
  }

  lemma ExtendAssociative<T>(x: Buckets<T>, y: Buckets<T>, z: Buckets<T>)
    ensures x.Extend(y).Extend(z) == x.Extend(y.Extend(z))
  {
    assert x.als + y.als + z.als == x.als + (y.als + z.als);
    assert x.alp + y.alp + z.alp == x.alp + (y.alp + z.alp);
    assert x.keyword + y.keyword + z.keyword == x.keyword + (y.keyword + z.keyword);
  }

  lemma ExtendApply<T>(x: Buckets<T>, y: Buckets<T>, t: Option<Tag<T>>)
    ensures x.Extend(Apply(y, t)) == Apply(x.Extend(y), t)
  {
    match t
    case None =>
    case Some(Tag(c, v)) =>
      match c
      case Als => assert x.als + (y.als + [v]) == x.als + y.als + [v];
      case Alp => assert x.alp + (y.alp + [v]) == x.alp + y.alp + [v];
      case Keyword => assert x.keyword + (y.keyword + [v]) == x.keyword + y.keyword + [v];
  }

  lemma ExtendEmpty<T>(x: Buckets<T>)
    ensures x.Extend(Empty()) == x
    ensures Empty<T>().Extend(x) == x
  {
    assert x.als + [] == x.als && x.alp + [] == x.alp && x.keyword + [] == x.keyword;
  }

  /** Scanning a concatenation gives the concatenation of the scans, bucket
      by bucket. */
  lemma {:induction false} BucketizeAppend<E(!new), T(!new)>(a: seq<E>, b: seq<E>, tag: E -> Option<Tag<T>>)
    ensures Bucketize(a + b, tag) == Bucketize(a, tag).Extend(Bucketize(b, tag))
    decreases |b|
  {
    if b == [] {
      assert a + b == a;
      ExtendEmpty(Bucketize(a, tag));
    } else {
      var b0 := b[..|b| - 1];
      var t := tag(b[|b| - 1]);
      assert (a + b)[..|a + b| - 1] == a + b0;
      assert (a + b)[|a + b| - 1] == b[|b| - 1];
      assert Bucketize(a + b, tag) == Apply(Bucketize(a + b0, tag), t);
      assert Bucketize(b, tag) == Apply(Bucketize(b0, tag), t);
      BucketizeAppend(a, b0, tag);
      ExtendApply(Bucketize(a, tag), Bucketize(b0, tag), t);
    }
  }

  /** Combine worker results: `for result in results: found[c].extend(result[c])`. */
  function Merge<T>(rs: seq<Buckets<T>>): (r: Buckets<T>)
    ensures r.Total() == SumTotals(rs)
  {
    if rs == [] then Empty() else Merge(rs[..|rs| - 1]).Extend(rs[|rs| - 1])
  }

  /** An item is in a merged list exactly when some result holds it in that
      list. */
  lemma {:induction false} MergeMembers<T>(rs: seq<Buckets<T>>, c: Category, x: T)
    ensures x in Merge(rs).Get(c) <==> exists i :: 0 <= i < |rs| && x in rs[i].Get(c)
    decreases |rs|
  {
    if rs != [] {
      var init := rs[..|rs| - 1];
      MergeMembers(init, c, x);
      assert Merge(rs).Get(c) == Merge(init).Get(c) + rs[|rs| - 1].Get(c);
      if exists i :: 0 <= i < |rs| && x in rs[i].Get(c) {
        var i :| 0 <= i < |rs| && x in rs[i].Get(c);
        if i < |init| {
          assert init[i] == rs[i];
        }
      }
      if exists i :: 0 <= i < |init| && x in init[i].Get(c) {
        var i :| 0 <= i < |init| && x in init[i].Get(c);
        assert init[i] == rs[i];
      }
    }
  }

  /** Sum of the result sizes, `sum(len(v) for v in found.values())` over
      every result. */
  function SumTotals<T>(rs: seq<Buckets<T>>): nat {
    if rs == [] then 0 else SumTotals(rs[..|rs| - 1]) + rs[|rs| - 1].Total()
  }

  /** Merging is concatenation bucket by bucket. */
  lemma {:induction false} MergeAppend<T(!new)>(a: seq<Buckets<T>>, b: seq<Buckets<T>>)
    ensures Merge(a + b) == Merge(a).Extend(Merge(b))
    ensures SumTotals(a + b) == SumTotals(a) + SumTotals(b)
    decreases |b|
  {
    if b == [] {
      assert a + b == a;
      ExtendEmpty(Merge(a));
    } else {
      var b0 := b[..|b| - 1];
      var last := b[|b| - 1];
      assert (a + b)[..|a + b| - 1] == a + b0;
      assert (a + b)[|a + b| - 1] == last;
      assert Merge(a + b) == Merge(a + b0).Extend(last);
      assert Merge(b) == Merge(b0).Extend(last);
      MergeAppend(a, b0);
      ExtendAssociative(Merge(a), Merge(b0), last);
    }
  }

  /** Merging one result gives that result. */
  lemma MergeSingle<T(!new)>(x: Buckets<T>)
    ensures Merge([x]) == x
  {
    assert [x][..0] == [];
    ExtendEmpty(x);
  }

  /** Each result occupies one contiguous block of every merged list, and
      blocks appear in the order of the results. */
  lemma MergeKeepsResultOrder<T(!new)>(rs: seq<Buckets<T>>, i: nat)
    requires i < |rs|
    ensures Merge(rs) == Merge(rs[..i]).Extend(rs[i]).Extend(Merge(rs[i + 1..]))
  {
    SplitAt(rs, i);
    MergeAppend(rs[..i] + [rs[i]], rs[i + 1..]);
    MergeAppend(rs[..i], [rs[i]]);
    MergeSingle(rs[i]);
  }

  /** Taking one result out of the middle of the list takes exactly its
      items out of the merge. */
  lemma MergeRemove<T(!new)>(pre: seq<Buckets<T>>, x: Buckets<T>, post: seq<Buckets<T>>, c: Category)
    ensures multiset(Merge(pre + [x] + post).Get(c)) == multiset(x.Get(c)) + multiset(Merge(pre + post).Get(c))
    ensures SumTotals(pre + [x] + post) == x.Total() + SumTotals(pre + post)
  {
    var a, b := Merge(pre).Get(c), Merge(post).Get(c);
    MergeAround(pre, x, post, c);
    assert multiset(a + x.Get(c) + b) == multiset(a) + multiset(x.Get(c)) + multiset(b);
    assert multiset(a + b) == multiset(a) + multiset(b);
  }

  /** The merged list with `x` between `pre` and `post`, and without it. */
  lemma MergeAround<T(!new)>(pre: seq<Buckets<T>>, x: Buckets<T>, post: seq<Buckets<T>>, c: Category)
    ensures Merge(pre + [x] + post).Get(c) == Merge(pre).Get(c) + x.Get(c) + Merge(post).Get(c)
    ensures Merge(pre + post).Get(c) == Merge(pre).Get(c) + Merge(post).Get(c)
    ensures SumTotals(pre + [x] + post) == x.Total() + SumTotals(pre + post)
  {
    MergeAppend(pre + [x], post);
    MergeAppend(pre, [x]);
    MergeAppend(pre, post);
    MergeSingle(x);
    assert SumTotals([x]) == x.Total() by {
      assert [x][..0] == [];
    }
  }

  lemma MergeRemoveAt<T(!new)>(rs: seq<Buckets<T>>, j: nat, c: Category)
    requires j < |rs|
    ensures multiset(Merge(rs).Get(c)) == multiset(rs[j].Get(c)) + multiset(Merge(rs[..j] + rs[j + 1..]).Get(c))
    ensures SumTotals(rs) == rs[j].Total() + SumTotals(rs[..j] + rs[j + 1..])
  {
    SplitAt(rs, j);
    MergeRemove(rs[..j], rs[j], rs[j + 1..], c);
  }

  lemma MergeCons<T(!new)>(x: Buckets<T>, rs: seq<Buckets<T>>, c: Category)
    ensures multiset(Merge([x] + rs).Get(c)) == multiset(x.Get(c)) + multiset(Merge(rs).Get(c))
    ensures SumTotals([x] + rs) == x.Total() + SumTotals(rs)
  {
    assert [] + [x] + rs == [x] + rs;
    assert [] + rs == rs;
    MergeRemove([], x, rs, c);
  }

  lemma SplitLast<T>(xs: seq<T>)
    requires xs != []
    ensures xs == xs[..|xs| - 1] + [xs[|xs| - 1]]
    ensures forall x :: x in xs <==> x in xs[..|xs| - 1] || x == xs[|xs| - 1]
  {
    assert xs == xs[..|xs| - 1] + [xs[|xs| - 1]];
  }

  lemma SplitAt<T>(xs: seq<T>, j: nat)
    requires j < |xs|
    ensures xs == xs[..j] + [xs[j]] + xs[j + 1..]
  {
  }

  /** The order in which a pool hands back results (`imap_unordered`): each
      time, one of the tasks still outstanding finishes, the one at position
      `picks[0]` among those left (the first when the pick is out of range);
      when the picks run out the rest finish in task order.
      `ScheduleCovers` shows that every completion order arises from some
      `picks`. */
  function Schedule<T>(xs: seq<T>, picks: seq<nat>): (r: seq<T>)
    ensures |r| == |xs|
    decreases |xs|
  {
    if xs == [] then []
    else
      var k := NextPick(|xs|, picks);
      [xs[k]] + Schedule(xs[..k] + xs[k + 1..], LaterPicks(picks))
  }

  /** The position among `n` outstanding tasks that finishes next. */
  function NextPick(n: nat, picks: seq<nat>): (k: nat)
    requires n > 0
    ensures k < n
    ensures picks != [] && picks[0] < n ==> k == picks[0]
    ensures picks == [] || picks[0] >= n ==> k == 0
  {
    if picks == [] || picks[0] >= n then 0 else picks[0]
  }

  function LaterPicks(picks: seq<nat>): seq<nat> {
    if picks == [] then [] else picks[1..]
  }

  /** One completion peeled off the front of a schedule. */
  lemma ScheduleStep<T>(xs: seq<T>, picks: seq<nat>)
    requires xs != []
    ensures var k := NextPick(|xs|, picks);
            Schedule(xs, picks) == [xs[k]] + Schedule(xs[..k] + xs[k + 1..], LaterPicks(picks))
  {
  }

  /** Taking out the element at `k` takes one copy of it out of the
      multiset. */
  lemma MultisetWithout<T>(xs: seq<T>, k: nat)
    requires k < |xs|
    ensures multiset(xs) == multiset{xs[k]} + multiset(xs[..k] + xs[k + 1..])
  {
    assert xs == xs[..k] + [xs[k]] + xs[k + 1..];
  }

  /** Whatever the completion order, the pool returns each task's result
      exactly once. */
  lemma {:induction false} ScheduleIsPermutation<T>(xs: seq<T>, picks: seq<nat>)
    ensures multiset(Schedule(xs, picks)) == multiset(xs)
    decreases |xs|
  {
    if xs != [] {
      var k := NextPick(|xs|, picks);
      var rest := xs[..k] + xs[k + 1..];
      ScheduleStep(xs, picks);
      ScheduleIsPermutation(rest, LaterPicks(picks));
      MultisetWithout(xs, k);
    }
  }

  /** The merge does not depend on the order in which the pool hands the
      results back: every merged list holds the same items as many times
      each, and the total is the same. */
  lemma {:induction false} MergeScheduled<T(!new)>(rs: seq<Buckets<T>>, picks: seq<nat>, c: Category)
    ensures multiset(Merge(Schedule(rs, picks)).Get(c)) == multiset(Merge(rs).Get(c))
    ensures SumTotals(Schedule(rs, picks)) == SumTotals(rs)
    decreases |rs|
  {
    if rs != [] {
      var k := NextPick(|rs|, picks);
      var rest := rs[..k] + rs[k + 1..];
      ScheduleStep(rs, picks);
      MergeScheduled(rest, LaterPicks(picks), c);
      MergeCons(rs[k], Schedule(rest, LaterPicks(picks)), c);
      MergeRemoveAt(rs, k, c);
    }
  }

  /** Every rearrangement of the tasks is the completion order of some
      `picks`: the model leaves out no order a pool could produce. */
  lemma {:induction false} ScheduleCovers<T>(xs: seq<T>, ys: seq<T>) returns (picks: seq<nat>)
    requires multiset(ys) == multiset(xs)
    ensures Schedule(xs, picks) == ys
    decreases |xs|
  {
    SameSize(xs, ys);
    if xs == [] {
      picks := [];
    } else {
      var k := Locate(xs, ys[0]);
      RemoveMatchingFirst(xs, k, ys);
      var later := ScheduleCovers(xs[..k] + xs[k + 1..], ys[1..]);
      picks := [k] + later;
      ScheduleCons(xs, k, later);
      assert ys == [ys[0]] + ys[1..];
    }
  }

  lemma SameSize<T>(xs: seq<T>, ys: seq<T>)
    requires multiset(ys) == multiset(xs)
    ensures |ys| == |xs|
  {
    assert |multiset(ys)| == |multiset(xs)|;
  }

  /** A position of `y` in `xs`. */
  lemma Locate<T>(xs: seq<T>, y: T) returns (k: nat)
    requires y in multiset(xs)
    ensures k < |xs| && xs[k] == y
  {
    k :| k < |xs| && xs[k] == y;
  }

  /** A schedule whose first pick is `k` completes task `k` first. */
  lemma ScheduleCons<T>(xs: seq<T>, k: nat, later: seq<nat>)
    requires k < |xs|
    ensures Schedule(xs, [k] + later) == [xs[k]] + Schedule(xs[..k] + xs[k + 1..], later)
  {
    assert NextPick(|xs|, [k] + later) == k && LaterPicks([k] + later) == later;
    ScheduleStep(xs, [k] + later);
  }

  /** Taking the same element out of two rearrangements of each other
      leaves rearrangements of each other. */
  lemma RemoveMatchingFirst<T>(xs: seq<T>, k: nat, ys: seq<T>)
    requires multiset(ys) == multiset(xs) && k < |xs| && ys != [] && xs[k] == ys[0]
    ensures multiset(ys[1..]) == multiset(xs[..k] + xs[k + 1..])
  {
    MultisetWithout(xs, k);
    assert ys == [ys[0]] + ys[1..];
    var a, b := multiset(xs[..k] + xs[k + 1..]), multiset(ys[1..]);
    forall z
      ensures a[z] == b[z]
    {
      assert multiset(xs)[z] == multiset{ys[0]}[z] + a[z];
      assert multiset(ys)[z] == multiset{ys[0]}[z] + b[z];
    }
  }

  /** Without picks the results come back in task order. */
  lemma {:induction false} ScheduleWithoutPicks<T>(xs: seq<T>)
    ensures Schedule(xs, []) == xs
    decreases |xs|
  {
    if xs != [] {
      ScheduleWithoutPicks(xs[1..]);
      assert xs[..0] + xs[1..] == xs[1..];
    }
  }
}

=== FILE: copying.dfy ===
/** The copy phase. The filesystem's answer to "copy src to dst" is an
    oracle; the scripts differ in whether a failed copy stops the loop. */
module Copying {
  import opened Tree
  import opened Paths

  /** Whether copying `src` to `dst` succeeds (open/read/write, or
      `shutil.copy2` with its `makedirs`). */
  type CopyOracle = (Path, Path) -> bool

  /** One copy and its outcome. */
  datatype Attempt = Attempt(src: Path, dst: Path, ok: bool)

  /** Copy `src` flat into `outDir`. */
  function FlatAttempt(src: Path, outDir: Path, copy: CopyOracle): Attempt {
    var dst := FlatDestination(outDir, src);
    Attempt(src, dst, copy(src, dst))
  }

  /** `save_recovered_files` of recover_als_files.py, recover_als_files2.py
      and recovery_als_files3.py: the loop has no handler, so the first
      failing copy raises out of the program and nothing after it is tried.
      The attempts made are the files in order, up to and including the
      first failure; every attempt before the last one succeeded. */
  function SaveUntilFailure(files: seq<Path>, outDir: Path, copy: CopyOracle): (r: seq<Attempt>)
    ensures |r| <= |files|
    ensures files != [] ==> |r| > 0
    ensures forall i :: 0 <= i < |r| ==> r[i] == FlatAttempt(files[i], outDir, copy)
    ensures forall i :: 0 <= i < |r| - 1 ==> r[i].ok
    ensures |r| < |files| ==> !r[|r| - 1].ok
  {
    if files == [] then []
    else
      var a := FlatAttempt(files[0], outDir, copy);
      if !a.ok then [a] else [a] + SaveUntilFailure(files[1..], outDir, copy)
  }

  /** What a caller reads off an unguarded save of a non-empty list: some
      files were tried, in list order, every one before the last succeeded,
      and a run that stopped early stopped on a failure. */
  lemma UntilFailureFacts(files: seq<Path>, outDir: Path, copy: CopyOracle)
    requires files != []
    ensures var r := SaveUntilFailure(files, outDir, copy);
            && 0 < |r| <= |files|
            && (forall i :: 0 <= i < |r| ==> r[i].src == files[i])
            && (forall i :: 0 <= i < |r| - 1 ==> r[i].ok)
            && (|r| < |files| ==> !r[|r| - 1].ok)
  {
    var r := SaveUntilFailure(files, outDir, copy);
    assert forall i :: 0 <= i < |r| ==> r[i] == FlatAttempt(files[i], outDir, copy);
  }

  /** `save_recovered_files` of recovery_als_files4.py: each failure is
      caught and reported, and the loop goes on with the next file. */
  function SaveEach(files: seq<Path>, outDir: Path, copy: CopyOracle): (r: seq<Attempt>)
    ensures |r| == |files|
    ensures forall i :: 0 <= i < |r| ==> r[i].src == files[i] && r[i].dst == FlatDestination(outDir, files[i])
    ensures forall i :: 0 <= i < |r| ==> r[i].ok == copy(files[i], FlatDestination(outDir, files[i]))
  {
    seq(|files|, i requires 0 <= i < |files| => FlatAttempt(files[i], outDir, copy))
  }

  /** The unguarded loop performs a prefix of what the guarded loop
      performs, with the same outcomes, and both perform the same copies
      exactly when no copy fails before the last file. */
  lemma UntilFailureIsPrefixOfEach(files: seq<Path>, outDir: Path, copy: CopyOracle)
    ensures var r1, r2 := SaveUntilFailure(files, outDir, copy), SaveEach(files, outDir, copy);
            r1 == r2[..|r1|] &&
            (r1 == r2 <==> forall i :: 0 <= i < |files| - 1 ==> r2[i].ok)
  {
    var r1, r2 := SaveUntilFailure(files, outDir, copy), SaveEach(files, outDir, copy);
    assert r1 == r2[..|r1|];
    if forall i :: 0 <= i < |files| - 1 ==> r2[i].ok {
      if |r1| < |files| {
        assert !r2[|r1| - 1].ok;
      }
    }
  }

  /** `sum(1 for r in save_results if r)` */
  function CountTrue(bs: seq<bool>): (n: nat)
    ensures n == multiset(bs)[true]
    ensures n + multiset(bs)[false] == |bs|
  {
    if bs == [] then 0
    else
      assert bs == bs[..|bs| - 1] + [bs[|bs| - 1]];
      CountTrue(bs[..|bs| - 1]) + (if bs[|bs| - 1] then 1 else 0)
  }

  /** Result of the flat-copy scripts: nothing to do, or the output directory
      (`created` when it did not exist yet) and the copies attempted. */
  datatype FlatRun = NothingFound | Saved(created: bool, attempts: seq<Attempt>)

  /** `if found: save_recovered_files(found, output_dir)`, where
      `save_recovered_files` creates `output_dir` only when it is missing. */
  function SaveIfFound(found: seq<Path>, outDir: Path, outDirExists: bool, copy: CopyOracle): (r: FlatRun)
    ensures r.NothingFound? <==> found == []
    ensures r.Saved? ==> r.created == !outDirExists && r.attempts == SaveUntilFailure(found, outDir, copy)
  {
    if found == [] then NothingFound
    else Saved(!outDirExists, SaveUntilFailure(found, outDir, copy))
  }
}

=== FILE: header.dfy ===
/** Content sniffing. Two fixed byte strings identify Ableton files: the XML
    text `<Ableton Live Set` and the 8-byte ZIP local file header signature
    `PK\x03\x04` (section 4.3.7 of PKWARE's APPNOTE.TXT) followed by
    "version needed to extract = 20" and zero general-purpose flags. */
module Header {
  import opened Basics
  import opened Tree

  /** `b'<Ableton Live Set'` */
  const AlsMarker: seq<byte> :=
    [0x3C, 0x41, 0x62, 0x6C, 0x65, 0x74, 0x6F, 0x6E, 0x20,
     0x4C, 0x69, 0x76, 0x65, 0x20, 0x53, 0x65, 0x74]

  /** `b'PK\x03\x04\x14\x00\x00\x00'` */
  const ZipMagic: seq<byte> := [0x50, 0x4B, 0x03, 0x04, 0x14, 0x00, 0x00, 0x00]

  /** `open(path, 'rb').read(n)`: up to `n` leading bytes, or `None` when
      opening raises (the catch-all handlers turn that into "no match"). */
  function ReadHeader(f: File, n: nat): (r: Option<seq<byte>>)
    ensures r.None? <==> !f.readable
    ensures r.Some? ==> |r.value| == Min(n, |f.content|) && StartsWith(f.content, r.value)
  {
    if f.readable then Some(f.content[..Min(n, |f.content|)]) else None
  }

  /** The marker ends within the first `n` bytes of `c`. */
  ghost predicate MarkerWithin(c: seq<byte>, n: nat) {
    exists i: nat :: i + |AlsMarker| <= n && OccursAt(AlsMarker, c, i)
  }

  /** `ALS_MARKER in header or header.startswith(ALP_MARKER)` on an
      `n`-byte read; false when the read fails. For any read of at least
      eight bytes the magic test is a test on the file's own first bytes. */
  function MarkerOrMagic(f: File, n: nat): (r: bool)
    ensures r <==> f.readable && (MarkerWithin(f.content, n) ||
                                  StartsWith(f.content[..Min(n, |f.content|)], ZipMagic))
    ensures |ZipMagic| <= n ==>
              (r <==> f.readable && (MarkerWithin(f.content, n) || StartsWith(f.content, ZipMagic)))
  {
    match ReadHeader(f, n)
    case None => false
    case Some(h) =>
      InfixOfPrefix(AlsMarker, f.content, n);
      assert |ZipMagic| <= n && |ZipMagic| <= |f.content| ==> h[..|ZipMagic|] == f.content[..|ZipMagic|];
      Contains(h, AlsMarker) || StartsWith(h, ZipMagic)
  }

  /** `is_als_file` of recover_als_files2/recovery_als_files3:
      `f.read(8) == ALP magic`. A file shorter than eight bytes, or one that
      cannot be opened, never matches. */
  function ExactMagic(f: File): (r: bool)
    ensures r <==> f.readable && StartsWith(f.content, ZipMagic)
    ensures |f.content| < |ZipMagic| ==> !r
  {
    match ReadHeader(f, 8)
    case None => false
    case Some(h) => h == ZipMagic
  }
}

=== FILE: keywords.dfy ===
/** Case-insensitive filename keyword tests. v5 skips empty keywords
    (`for k in keywords if k`); recovery_als_files3 and 4 do not, so there
    an empty keyword matches every name. */
module Keywords {
  import opened Basics

  /** Keyword `k` matches `name` when `k.lower() in name.lower()`. */
  ghost predicate Matches(k: string, name: string) {
    IsInfix(Lower(k), Lower(name))
  }

  /** `any(k.lower() in name.lower() for k in keywords if k)` */
  function AnyNonEmpty(keywords: seq<string>, name: string): (r: bool)
    ensures r <==> exists k :: k in keywords && k != "" && Matches(k, name)
    ensures (forall k :: k in keywords ==> k == "") ==> !r
  {
    if keywords == [] then false
    else
      var k := keywords[0];
      var found := k != "" && Contains(Lower(name), Lower(k));
      assert found <==> k != "" && Matches(k, name);
      assert forall x :: x in keywords <==> x == k || x in keywords[1..];
      found || AnyNonEmpty(keywords[1..], name)
  }

  /** `any(k.lower() in name.lower() for k in keywords)` */
  function AnyKeyword(keywords: seq<string>, name: string): (r: bool)
    ensures r <==> exists k :: k in keywords && Matches(k, name)
    ensures "" in keywords ==> r
  {
    if keywords == [] then false
    else
      var k := keywords[0];
      assert forall x :: x in keywords <==> x == k || x in keywords[1..];
      var found := Contains(Lower(name), Lower(k));
      assert found <==> Matches(k, name);
      EmptyIsInfix(Lower(name));
      assert Lower("") == [];
      found || AnyKeyword(keywords[1..], name)
  }

  /** The guard is the only difference: it can only remove matches, and
      without an empty keyword in the list the two tests agree. */
  lemma GuardOnlyDropsEmptyKeywords(keywords: seq<string>, name: string)
    ensures AnyNonEmpty(keywords, name) ==> AnyKeyword(keywords, name)
    ensures "" !in keywords ==> (AnyNonEmpty(keywords, name) <==> AnyKeyword(keywords, name))
  {
  }

  /** Matching ignores ASCII case in the file name. */
  lemma MatchIgnoresNameCase(keywords: seq<string>, name: string)
    ensures AnyNonEmpty(keywords, Lower(name)) == AnyNonEmpty(keywords, name)
    ensures AnyKeyword(keywords, Lower(name)) == AnyKeyword(keywords, name)
  {
    LowerIsIdempotent(name);
  }
}

=== FILE: partition.dfy ===
/** Work partitioning of v4 (`parallel_scan`) and v5 (`main`): one scan
    root per immediate subdirectory of the scan directory, or the scan
    directory itself when it has none. */
module Partition {
  import opened Basics
  import opened Tree
  import opened Buckets

  /** A directory handed to one worker, with its path. */
  datatype Root = Root(dir: Dir, path: Path)

  /** One root per subdirectory, in listing order. */
  function SubdirRoots(ds: seq<Dir>, path: Path): seq<Root> {
    seq(|ds|, i requires 0 <= i < |ds| => Root(ds[i], path + [ds[i].name]))
  }

  /** `[d for d in scan_dir.iterdir() if d.is_dir()]`, or `[scan_dir]` when
      that is empty. Listing an unreadable scan directory raises, which the
      top-level handler turns into the end of the run: `None`. A subdirectory
      is a root whether or not it is readable. */
  function ScanRoots(scanDir: Dir, scanPath: Path): (r: Option<seq<Root>>)
    ensures r.None? <==> !scanDir.readable
    ensures r.Some? ==> |r.value| == if scanDir.subdirs == [] then 1 else |scanDir.subdirs|
  {
    if !scanDir.readable then None
    else if scanDir.subdirs == [] then Some([Root(scanDir, scanPath)])
    else Some(SubdirRoots(scanDir.subdirs, scanPath))
  }

  /** Everything the workers walk, root after root. */
  function WalkRoots(roots: seq<Root>): seq<Entry> {
    if roots == [] then [] else Walk(roots[0].dir, roots[0].path) + WalkRoots(roots[1..])
  }

  lemma {:induction false} WalkSubdirRoots(ds: seq<Dir>, path: Path)
    ensures WalkRoots(SubdirRoots(ds, path)) == WalkAll(ds, path)
    decreases |ds|
  {
    if ds != [] {
      assert SubdirRoots(ds, path)[1..] == SubdirRoots(ds[1..], path);
      WalkSubdirRoots(ds[1..], path);
    }
  }

  /** The partition covers the scan directory's subtrees exactly when there
      are subdirectories, and the whole scan directory when there are none. */
  lemma PartitionCoverage(scanDir: Dir, scanPath: Path)
    requires scanDir.readable
    ensures scanDir.subdirs == [] ==> WalkRoots(ScanRoots(scanDir, scanPath).value) == Walk(scanDir, scanPath)
    ensures scanDir.subdirs != [] ==> WalkRoots(ScanRoots(scanDir, scanPath).value) == WalkAll(scanDir.subdirs, scanPath)
  {
    if scanDir.subdirs == [] {
      var roots := [Root(scanDir, scanPath)];
      assert roots[1..] == [];
      assert WalkRoots(roots) == Walk(scanDir, scanPath) + [];
    } else {
      WalkSubdirRoots(scanDir.subdirs, scanPath);
    }
  }

  /** Files sitting directly in the scan directory are walked when it has no
      subdirectory and never walked once it has one. */
  lemma DirectFilesSkippedWhenSubdirsExist(scanDir: Dir, scanPath: Path, i: nat)
    requires scanDir.readable && i < |scanDir.files|
    ensures var e := Entry(scanPath + [scanDir.files[i].name], scanDir.files[i]);
            e in WalkRoots(ScanRoots(scanDir, scanPath).value) <==> scanDir.subdirs == []
  {
    var e := Entry(scanPath + [scanDir.files[i].name], scanDir.files[i]);
    PartitionCoverage(scanDir, scanPath);
    if scanDir.subdirs == [] {
      assert FileEntries(scanDir.files, scanPath)[i] == e;
    } else if e in WalkAll(scanDir.subdirs, scanPath) {
      WalkAllSubdirsAreDeeper(scanDir.subdirs, scanPath, e);
    }
  }

  /** Entries below a subdirectory are at least two components below the
      parent. */
  lemma {:induction false} WalkAllSubdirsAreDeeper(ds: seq<Dir>, path: Path, e: Entry)
    requires e in WalkAll(ds, path)
    ensures |e.path| >= |path| + 2
    decreases |ds|
  {
    if e in Walk(ds[0], path + [ds[0].name]) {
      assert Below(e, path + [ds[0].name]);
    } else {
      WalkAllSubdirsAreDeeper(ds[1..], path, e);
    }
  }

  /** Every walked entry lies strictly below the scan directory, whichever
      roots were chosen. */
  lemma {:induction false} WalkRootsBelow(roots: seq<Root>, base: Path, e: Entry)
    requires forall i :: 0 <= i < |roots| ==> |base| <= |roots[i].path| && roots[i].path[..|base|] == base
    requires e in WalkRoots(roots)
    ensures Below(e, base)
    decreases |roots|
  {
    var p := roots[0].path;
    if e in Walk(roots[0].dir, p) {
      assert Below(e, p);
      assert e.path[..|p|][..|base|] == e.path[..|base|];
    } else {
      WalkRootsBelow(roots[1..], base, e);
    }
  }

  lemma ScanRootsBelowScanDir(scanDir: Dir, scanPath: Path)
    requires scanDir.readable
    ensures var roots := ScanRoots(scanDir, scanPath).value;
            forall i :: 0 <= i < |roots| ==> |scanPath| <= |roots[i].path| && roots[i].path[..|scanPath|] == scanPath
  {
  }

  /** One worker result per root: the walk of that root, scanned. */
  function ScanEach<T(!new)>(roots: seq<Root>, tag: Entry -> Option<Tag<T>>): seq<Buckets<T>> {
    seq(|roots|, i requires 0 <= i < |roots| => Bucketize(Walk(roots[i].dir, roots[i].path), tag))
  }

  /** Scanning the roots separately and merging in root order equals one
      scan over the concatenated walks. */
  lemma {:induction false} MergeOfWorkers<T(!new)>(roots: seq<Root>, tag: Entry -> Option<Tag<T>>)
    ensures Merge(ScanEach(roots, tag)) == Bucketize(WalkRoots(roots), tag)
    decreases |roots|
  {
    var rs := ScanEach(roots, tag);
    if roots == [] {
      assert WalkRoots(roots) == [];
    } else {
      var w := Walk(roots[0].dir, roots[0].path);
      assert rs == [rs[0]] + ScanEach(roots[1..], tag);
      MergeOfWorkers(roots[1..], tag);
      MergeAppend([rs[0]], ScanEach(roots[1..], tag));
      MergeSingle(rs[0]);
      BucketizeAppend(w, WalkRoots(roots[1..]), tag);
    }
  }
}

=== FILE: paths.dfy ===
/** Destination paths. The earlier scripts copy flat, to
    `os.path.join(output_dir, os.path.basename(src))`; v5 keeps the structure,
    copying to `os.path.join(output_base_dir, os.path.relpath(src, base))`. */
module Paths {
  import opened Tree

  /** `os.path.basename`: the last component. */
  function Basename(p: Path): (r: string)
    ensures p == [] ==> r == ""
  {
    if |p| == 0 then "" else p[|p| - 1]
  }

  /** `os.path.basename(os.path.join(dir, name))` is `name`: the basename
      is the component a path was last extended with. */
  lemma BasenameOfJoin(dir: Path, name: string)
    ensures Basename(dir + [name]) == name
  {
  }

  /** Flat copy target: the output directory joined with the basename. */
  function FlatDestination(outDir: Path, src: Path): (r: Path)
    ensures StrictlyBelow(r, outDir) && |r| == |outDir| + 1
    ensures Basename(r) == Basename(src)
  {
    outDir + [Basename(src)]
  }

  /** Flat destinations depend on the basename only: two sources collide
      exactly when their basenames are equal, whatever directories they
      came from. */
  lemma FlatDestinationsCollide(outDir: Path, a: Path, b: Path)
    ensures FlatDestination(outDir, a) == FlatDestination(outDir, b) <==> Basename(a) == Basename(b)
  {
    if FlatDestination(outDir, a) == FlatDestination(outDir, b) {
      assert FlatDestination(outDir, a)[|outDir|] == Basename(a);
    }
  }

  /** Length of the longest common leading run of components. */
  function CommonPrefixLength(a: Path, b: Path): (k: nat)
    ensures k <= |a| && k <= |b| && a[..k] == b[..k]
    ensures k < |a| && k < |b| ==> a[k] != b[k]
  {
    if |a| == 0 || |b| == 0 || a[0] != b[0] then 0
    else
      var k := 1 + CommonPrefixLength(a[1..], b[1..]);
      assert a[..k] == [a[0]] + a[1..][..k - 1];
      assert b[..k] == [b[0]] + b[1..][..k - 1];
      k
  }

  /** `n` parent-directory components. */
  function Ups(n: nat): (r: Path)
    ensures |r| == n
  {
    seq(n, _ => "..")
  }

  /** `os.path.relpath(p, base)` on normalised paths: climb out of the part of
      `base` that `p` does not share, then descend along the rest of `p`;
      the empty result is spelled ".". For a path strictly below the base
      it is the remaining suffix of components. */
  function RelPath(p: Path, base: Path): (r: Path)
    ensures r != []
    ensures StrictlyBelow(p, base) ==> r == p[|base|..]
  {
    var k := CommonPrefixLength(p, base);
    assert StrictlyBelow(p, base) ==> k == |base| by {
      if StrictlyBelow(p, base) {
        assert forall i :: 0 <= i < |base| ==> p[i] == p[..|base|][i];
      }
    }
    var up := Ups(|base| - k) + p[k..];
    if up == [] then ["."] else up
  }

  /** The v5 destination of `p`: `os.path.join(out, os.path.relpath(p, base))`. */
  function Rebase(p: Path, base: Path, out: Path): (r: Path)
    ensures StrictlyBelow(r, out)
    ensures StrictlyBelow(p, base) ==> r == out + p[|base|..]
  {
    out + RelPath(p, base)
  }

  /** `p` lies strictly below `base`: `base`'s components are a proper
      prefix of `p`'s. The components are compared as text, and `..` is not
      resolved. */
  predicate StrictlyBelow(p: Path, base: Path) {
    |base| < |p| && p[..|base|] == base
  }

  /** Structure-preserving destinations round-trip: stripping the output
      base from the destination gives the source's path relative to the scan
      base, and prepending the scan base gives the source back. */
  lemma RebaseRoundTrip(p: Path, base: Path, out: Path)
    requires StrictlyBelow(p, base)
    ensures StrictlyBelow(Rebase(p, base, out), out)
    ensures Rebase(p, base, out)[|out|..] == p[|base|..]
    ensures base + Rebase(p, base, out)[|out|..] == p
  {
    var d := Rebase(p, base, out);
    assert d[|out|..] == p[|base|..];
    assert p == p[..|base|] + p[|base|..];
  }

  /** Hence distinct sources below the base get distinct destinations. */
  lemma RebaseInjective(p: Path, q: Path, base: Path, out: Path)
    requires StrictlyBelow(p, base) && StrictlyBelow(q, base)
    requires Rebase(p, base, out) == Rebase(q, base, out)
    ensures p == q
  {
    RebaseRoundTrip(p, base, out);
    RebaseRoundTrip(q, base, out);
  }
}

=== FILE: recover1.dfy ===
/** recover_als_files.py: collect every file whose name ends in `.als` and
    copy the collection flat into one output directory. */
module RecoverV1 {
  import opened Basics
  import opened Tree
  import opened Copying

  /** The test of `scan_for_als_files`: `file.endswith('.als')`, case
      sensitive, on the name alone. */
  predicate HasAlsSuffix(e: Entry) {
    EndsWith(e.file.name, ".als")
  }

  /** `scan_for_als_files`: the walked paths whose name ends in `.als`, in
      walk order; each is the walk root joined with the file name. */
  function ScanForAls(d: Dir, path: Path): (r: seq<Path>)
    ensures forall p :: p in r <==> exists e :: e in Walk(d, path) && EndsWith(e.file.name, ".als") && e.path == p
    ensures forall p :: p in r ==> |path| < |p| && p[..|path|] == path && EndsWith(p[|p| - 1], ".als")
  {
    var r := Select(Walk(d, path), HasAlsSuffix);
    assert forall p :: p in r ==> |path| < |p| && p[..|path|] == path && EndsWith(p[|p| - 1], ".als") by {
      forall p | p in r
        ensures |path| < |p| && p[..|path|] == path && EndsWith(p[|p| - 1], ".als")
      {
        CollectedIsBelow(d, path, p);
      }
    }
    r
  }

  lemma CollectedIsBelow(d: Dir, path: Path, p: Path)
    requires exists e :: e in Walk(d, path) && HasAlsSuffix(e) && e.path == p
    ensures |path| < |p| && p[..|path|] == path && EndsWith(p[|p| - 1], ".als")
  {
    var e :| e in Walk(d, path) && HasAlsSuffix(e) && e.path == p;
    assert Below(e, path);
  }

  /** `main`: scan, then save only when something was found. */
  function Run(d: Dir, path: Path, outDir: Path, outDirExists: bool, copy: CopyOracle): (r: FlatRun)
    ensures r.NothingFound? <==> ScanForAls(d, path) == []
    ensures r.Saved? ==> r.created == !outDirExists
    ensures r.Saved? ==> r.attempts == SaveUntilFailure(ScanForAls(d, path), outDir, copy)
    ensures r.Saved? ==> var found := ScanForAls(d, path);
                         0 < |r.attempts| <= |found| &&
                         (forall i :: 0 <= i < |r.attempts| ==> r.attempts[i].src == found[i]) &&
                         (forall i :: 0 <= i < |r.attempts| - 1 ==> r.attempts[i].ok) &&
                         (|r.attempts| < |found| ==> !r.attempts[|r.attempts| - 1].ok)
  {
    var found := ScanForAls(d, path);
    if found != [] then
      UntilFailureFacts(found, outDir, copy);
      SaveIfFound(found, outDir, outDirExists, copy)
    else SaveIfFound(found, outDir, outDirExists, copy)
  }

  /** The same tree with every file emptied and made unreadable. */
  function EraseFile(f: File): File {
    File(f.name, false, [])
  }

  function EraseDir(d: Dir): Dir
    decreases d
  {
    Dir(d.name, d.readable, seq(|d.files|, i requires 0 <= i < |d.files| => EraseFile(d.files[i])), EraseDirs(d.subdirs))
  }

  function EraseDirs(ds: seq<Dir>): (r: seq<Dir>)
    ensures |r| == |ds|
    decreases ds
  {
    if ds == [] then [] else [EraseDir(ds[0])] + EraseDirs(ds[1..])
  }

  function EraseEntries(es: seq<Entry>): seq<Entry> {
    seq(|es|, i requires 0 <= i < |es| => Entry(es[i].path, EraseFile(es[i].file)))
  }

  lemma {:induction false} WalkErased(d: Dir, path: Path)
    ensures Walk(EraseDir(d), path) == EraseEntries(Walk(d, path))
    decreases d
  {
    if d.readable {
      var ed := EraseDir(d);
      WalkAllErased(d.subdirs, path);
      var fe, efe := FileEntries(d.files, path), FileEntries(ed.files, path);
      assert efe == EraseEntries(fe);
      var w := WalkAll(d.subdirs, path);
      assert EraseEntries(fe + w) == EraseEntries(fe) + EraseEntries(w);
    }
  }

  lemma {:induction false} WalkAllErased(ds: seq<Dir>, path: Path)
    ensures WalkAll(EraseDirs(ds), path) == EraseEntries(WalkAll(ds, path))
    decreases ds
  {
    if ds != [] {
      var eds := EraseDirs(ds);
      assert eds[0] == EraseDir(ds[0]) && eds[1..] == EraseDirs(ds[1..]);
      WalkErased(ds[0], path + [ds[0].name]);
      WalkAllErased(ds[1..], path);
      var a, b := Walk(ds[0], path + [ds[0].name]), WalkAll(ds[1..], path);
      assert EraseEntries(a + b) == EraseEntries(a) + EraseEntries(b);
    }
  }

  lemma {:induction false} SelectByNameIgnoresContent(es: seq<Entry>)
    ensures Select(EraseEntries(es), HasAlsSuffix) == Select(es, HasAlsSuffix)
    decreases |es|
  {
    if es != [] {
      assert EraseEntries(es)[1..] == EraseEntries(es[1..]);
      SelectByNameIgnoresContent(es[1..]);
    }
  }

  /** No content is inspected: emptying every file and revoking read access
      on every file leaves the collected list unchanged. */
  lemma ScanIgnoresContent(d: Dir, path: Path)
    ensures ScanForAls(EraseDir(d), path) == ScanForAls(d, path)
  {
    WalkErased(d, path);
    SelectByNameIgnoresContent(Walk(d, path));
  }
}

=== FILE: recover2.dfy ===
/** recover_als_files2.py: collect files named `*.als` or starting with the
    ZIP magic, copy them flat. recovery_als_files3.py repeats this scan
    unchanged. */
module RecoverV2 {
  import opened Basics
  import opened Tree
  import opened Header
  import opened Copying

  /** The test of `scan_for_als_files`: `file.endswith('.als') or
      is_als_file(path)`. Python evaluates the header read only when the
      name test fails; the read has no effect the model can observe. */
  function IsCollected(e: Entry): (r: bool)
    ensures r <==> EndsWith(e.file.name, ".als") || (e.file.readable && StartsWith(e.file.content, ZipMagic))
  {
    EndsWith(e.file.name, ".als") || ExactMagic(e.file)
  }

  /** `scan_for_als_files`: a walked file is collected iff its name ends in
      `.als` (case sensitive) or it can be read and begins with the magic. */
  function ScanForAls(d: Dir, path: Path): (r: seq<Path>)
    ensures forall p :: p in r <==>
              exists e :: e in Walk(d, path) && e.path == p &&
                          (EndsWith(e.file.name, ".als") || (e.file.readable && StartsWith(e.file.content, ZipMagic)))
  {
    Select(Walk(d, path), IsCollected)
  }

  /** A file the walk lists but cannot read is still collected by its name,
      and only by its name. */
  lemma UnreadableCollectedByNameOnly(e: Entry)
    requires !e.file.readable
    ensures IsCollected(e) <==> EndsWith(e.file.name, ".als")
  {
  }

  /** `main`: scan, then save only when something was found; the first
      failed copy ends the run. */
  function Run(d: Dir, path: Path, outDir: Path, outDirExists: bool, copy: CopyOracle): (r: FlatRun)
    ensures r.NothingFound? <==> ScanForAls(d, path) == []
    ensures r.Saved? ==> r.created == !outDirExists
    ensures r.Saved? ==> r.attempts == SaveUntilFailure(ScanForAls(d, path), outDir, copy)
    ensures r.Saved? ==> var found := ScanForAls(d, path);
                         0 < |r.attempts| <= |found| &&
                         (forall i :: 0 <= i < |r.attempts| ==> r.attempts[i].src == found[i]) &&
                         (forall i :: 0 <= i < |r.attempts| - 1 ==> r.attempts[i].ok) &&
                         (|r.attempts| < |found| ==> !r.attempts[|r.attempts| - 1].ok)
  {
    var found := ScanForAls(d, path);
    if found != [] then
      UntilFailureFacts(found, outDir, copy);
      SaveIfFound(found, outDir, outDirExists, copy)
    else SaveIfFound(found, outDir, outDirExists, copy)
  }
}

=== FILE: recover3.dfy ===
/** recovery_als_files3.py: the scan of recover_als_files2.py plus a separate
    keyword scan, combined without duplicates and copied flat. */
module RecoverV3 {
  import opened Basics
  import opened Tree
  import opened Keywords
  import opened Copying
  import opened Buckets
  import RecoverV2

  /** The keyword list `main` configures; it ends with an empty keyword. */
  const ConfiguredKeywords: seq<string> := ["Somni", "Luminara", "Moonflower", "Afterlude", ""]

  /** `scan_for_files_by_keywords`: the walked files whose name contains
      some keyword, ignoring ASCII case. Empty keywords are not skipped. */
  function ScanByKeywords(d: Dir, path: Path, keywords: seq<string>): (r: seq<Path>)
    ensures forall p :: p in r <==> exists e :: e in Walk(d, path) && AnyKeyword(keywords, e.file.name) && e.path == p
    ensures "" in keywords ==> forall e :: e in Walk(d, path) ==> e.path in r
  {
    Select(Walk(d, path), (e: Entry) => AnyKeyword(keywords, e.file.name))
  }

  /** With the configured list every walked file matches, readable or not. */
  lemma ConfiguredKeywordsMatchEverything(d: Dir, path: Path)
    ensures forall e :: e in Walk(d, path) ==> e.path in ScanByKeywords(d, path, ConfiguredKeywords)
  {
    assert ConfiguredKeywords[4] == "";
  }

  predicate NoDuplicates(xs: seq<Path>) {
    forall i, j :: 0 <= i < j < |xs| ==> xs[i] != xs[j]
  }

  /** Each element of `xs` once, first occurrences in order. */
  function Dedup(xs: seq<Path>): (r: seq<Path>)
    ensures NoDuplicates(r)
    ensures forall x :: x in r <==> x in xs
    ensures forall x :: multiset(r)[x] == if x in xs then 1 else 0
    ensures |r| <= |xs|
  {
    if xs == [] then []
    else
      var init := xs[..|xs| - 1];
      var last := xs[|xs| - 1];
      var r0 := Dedup(init);
      assert forall x :: x in xs <==> x in init || x == last;
      if last in r0 then r0 else r0 + [last]
  }

  /** `list(set(als_files + keyword_files))`: each path of either list
      exactly once, in the order the set iterates, which `order` stands for
      (a `Schedule` of the distinct paths; every order is one of these, see
      `ScheduleCovers`). */
  function Combine(als: seq<Path>, byKeyword: seq<Path>, order: seq<nat>): (r: seq<Path>)
    ensures NoDuplicates(r)
    ensures forall p :: p in r <==> p in als || p in byKeyword
    ensures forall p :: multiset(r)[p] == if p in als || p in byKeyword then 1 else 0
  {
    var distinct := Dedup(als + byKeyword);
    var r := Schedule(distinct, order);
    ScheduleIsPermutation(distinct, order);
    assert forall p :: p in r <==> p in multiset(distinct);
    assert forall p :: p in als + byKeyword <==> p in als || p in byKeyword;
    AtMostOnce(r);
    r
  }

  /** A list holding no element twice has no repeated position. */
  lemma AtMostOnce(xs: seq<Path>)
    requires forall x :: multiset(xs)[x] <= 1
    ensures NoDuplicates(xs)
  {
    forall i, j | 0 <= i < j < |xs|
      ensures xs[i] != xs[j]
    {
      assert xs == xs[..j] + [xs[j]] + xs[j + 1..];
      assert multiset(xs) == multiset(xs[..j]) + multiset{xs[j]} + multiset(xs[j + 1..]);
      assert xs[..j][i] == xs[i];
      assert multiset(xs[..j])[xs[i]] >= 1;
      assert multiset(xs)[xs[i]] <= 1;
      assert multiset(xs)[xs[i]] == multiset(xs[..j])[xs[i]] + multiset{xs[j]}[xs[i]] + multiset(xs[j + 1..])[xs[i]];
      assert multiset{xs[j]}[xs[i]] == 0;
    }
  }

  /** `main`: both scans, the combination, and a flat save when it is
      non-empty. The first failed copy ends the run, so which files get
      copied depends on the set's iteration order `order`. */
  function Run(d: Dir, path: Path, keywords: seq<string>, order: seq<nat>, outDir: Path, outDirExists: bool, copy: CopyOracle): (r: FlatRun)
    ensures var all := Combine(RecoverV2.ScanForAls(d, path), ScanByKeywords(d, path, keywords), order);
            && (r.NothingFound? <==> all == [])
            && (r.Saved? ==> r.created == !outDirExists && r.attempts == SaveUntilFailure(all, outDir, copy))
  {
    var all := Combine(RecoverV2.ScanForAls(d, path), ScanByKeywords(d, path, keywords), order);
    SaveIfFound(all, outDir, outDirExists, copy)
  }

  /** With the configured keywords the run copies every walked file at most
      once, and, unless a copy fails first, all of them; it saves nothing
      only when the walk finds no file at all. */
  lemma ConfiguredRunTakesEveryFile(d: Dir, path: Path, order: seq<nat>, outDir: Path, outDirExists: bool, copy: CopyOracle)
    ensures var all := Combine(RecoverV2.ScanForAls(d, path), ScanByKeywords(d, path, ConfiguredKeywords), order);
            && NoDuplicates(all)
            && (forall p :: p in all <==> exists e :: e in Walk(d, path) && e.path == p)
            && (Run(d, path, ConfiguredKeywords, order, outDir, outDirExists, copy).NothingFound? <==> Walk(d, path) == [])
  {
    var w := Walk(d, path);
    var all := Combine(RecoverV2.ScanForAls(d, path), ScanByKeywords(d, path, ConfiguredKeywords), order);
    ConfiguredKeywordsMatchEverything(d, path);
    if w != [] {
      assert w[0].path in all;
    }
  }
}

=== FILE: recover4.dfy ===
/** recovery_als_files4.py: one pass that sorts files into `.als`, `.alp`
    and keyword lists, run per top-level subdirectory on a process pool,
    then each non-empty list copied flat into its own subdirectory. */
module RecoverV4 {
  import opened Basics
  import opened Tree
  import opened Header
  import opened Keywords
  import opened Buckets
  import opened Partition
  import opened Copying

  /** `is_als_or_alp_file`: the marker within the first 100 bytes, or the
      ZIP magic at the start; any read error gives false. */
  function IsAlsOrAlpFile(f: File): (r: bool)
    ensures r <==> f.readable && (MarkerWithin(f.content, 100) || StartsWith(f.content, ZipMagic))
  {
    MarkerOrMagic(f, 100)
  }

  /** The `if/elif` chain of `scan_for_files`: a name ending in `.als` (case
      sensitive) with matching content is `als`; otherwise a name ending in
      `.alp` with matching content is `alp`; otherwise any keyword, empty
      ones included, makes it `keyword`. */
  function Classify(f: File, keywords: seq<string>): (r: Option<Category>)
    ensures r == Some(Als) <==> EndsWith(f.name, ".als") && IsAlsOrAlpFile(f)
    ensures r == Some(Alp) <==> EndsWith(f.name, ".alp") && IsAlsOrAlpFile(f)
    ensures r == Some(Keyword) <==> !((EndsWith(f.name, ".als") || EndsWith(f.name, ".alp")) && IsAlsOrAlpFile(f)) &&
                                    AnyKeyword(keywords, f.name)
    ensures "" in keywords ==> r.Some?
  {
    if EndsWith(f.name, ".als") && IsAlsOrAlpFile(f) then Some(Als)
    else if EndsWith(f.name, ".alp") && IsAlsOrAlpFile(f) then Some(Alp)
    else if AnyKeyword(keywords, f.name) then Some(Keyword)
    else None
  }

  /** Where one walked entry goes. */
  function Tagger(keywords: seq<string>): Entry -> Option<Tag<Path>> {
    (e: Entry) => match Classify(e.file, keywords)
                  case None => None
                  case Some(c) => Some(Tag(c, e.path))
  }

  /** `scan_for_files(directory, keywords)`: every walked path lands in the
      list its classification names, or in none. */
  function ScanForFiles(d: Dir, path: Path, keywords: seq<string>): (r: Buckets<Path>)
    ensures forall c, p :: p in r.Get(c) <==> exists e :: e in Walk(d, path) && Classify(e.file, keywords) == Some(c) && e.path == p
    ensures r.Total() <= |Walk(d, path)|
  {
    var tag := Tagger(keywords);
    var r := Bucketize(Walk(d, path), tag);
    assert forall e, c, p :: tag(e) == Some(Tag(c, p)) <==> Classify(e.file, keywords) == Some(c) && e.path == p;
    r
  }

  /** An empty keyword catches every file not sorted as `.als`/`.alp`, so
      each walked file is listed exactly once. */
  lemma EmptyKeywordListsEveryFile(d: Dir, path: Path, keywords: seq<string>)
    requires "" in keywords
    ensures ScanForFiles(d, path, keywords).Total() == |Walk(d, path)|
  {
    AllTagged(Walk(d, path), keywords);
  }

  lemma {:induction false} AllTagged(es: seq<Entry>, keywords: seq<string>)
    requires "" in keywords
    ensures TaggedCount(es, Tagger(keywords)) == |es|
    decreases |es|
  {
    if es != [] {
      AllTagged(es[..|es| - 1], keywords);
    }
  }

  /** `parallel_scan`: one `scan_for_files` per root, results in root order
      (`starmap` keeps order), concatenated per list. Listing an unreadable
      scan directory or failing to start the pool raises out to `main`. */
  function ParallelScan(scanDir: Dir, scanPath: Path, keywords: seq<string>, poolFails: bool): (r: Option<Buckets<Path>>)
    ensures r.None? <==> !scanDir.readable || poolFails
    ensures r.Some? ==> r.value == Bucketize(WalkRoots(ScanRoots(scanDir, scanPath).value), Tagger(keywords))
  {
    match ScanRoots(scanDir, scanPath)
    case None => None
    case Some(roots) =>
      if poolFails then None
      else
        MergeOfWorkers(roots, Tagger(keywords));
        Some(Merge(ScanEach(roots, Tagger(keywords))))
  }

  /** The merged lists keep every root's results together and in root
      order: the i-th root's `.als` list sits between those of the roots
      before and after it. */
  lemma ParallelScanKeepsRootOrder(roots: seq<Root>, keywords: seq<string>, i: nat, c: Category)
    requires i < |roots|
    ensures var rs := ScanEach(roots, Tagger(keywords));
            Merge(rs).Get(c) == Merge(rs[..i]).Get(c) + ScanForFiles(roots[i].dir, roots[i].path, keywords).Get(c) + Merge(rs[i + 1..]).Get(c)
  {
    MergeKeepsResultOrder(ScanEach(roots, Tagger(keywords)), i);
  }

  /** Output subdirectory of each list. */
  function SubdirName(c: Category): string {
    match c
    case Als => "ALS_Files"
    case Alp => "ALP_Files"
    case Keyword => "Keyword_Files"
  }

  /** One call of `save_recovered_files` for one list. */
  datatype CategorySave = CategorySave(cat: Category, dir: Path, created: bool, attempts: seq<Attempt>)

  datatype Report = ScanFailed | Done(found: Buckets<Path>, saves: seq<CategorySave>)

  /** The record of saving list `c` into its subdirectory of `outDir`. */
  predicate SavedAs(s: CategorySave, found: Buckets<Path>, outDir: Path, existing: set<Path>, copy: CopyOracle) {
    && s.dir == outDir + [SubdirName(s.cat)]
    && s.created == (s.dir !in existing)
    && s.attempts == SaveEach(found.Get(s.cat), s.dir, copy)
  }

  /** Save list `c` when it is non-empty. */
  function SaveCategory(found: Buckets<Path>, c: Category, outDir: Path, existing: set<Path>, copy: CopyOracle): (r: seq<CategorySave>)
    ensures r == [] <==> found.Get(c) == []
    ensures |r| <= 1
    ensures forall s :: s in r ==> s.cat == c && SavedAs(s, found, outDir, existing, copy)
  {
    if found.Get(c) == [] then []
    else
      var dir := outDir + [SubdirName(c)];
      [CategorySave(c, dir, dir !in existing, SaveEach(found.Get(c), dir, copy))]
  }

  function AttemptCount(saves: seq<CategorySave>): nat {
    if saves == [] then 0 else |saves[0].attempts| + AttemptCount(saves[1..])
  }

  lemma {:induction false} AttemptCountAppend(a: seq<CategorySave>, b: seq<CategorySave>)
    ensures AttemptCount(a + b) == AttemptCount(a) + AttemptCount(b)
    decreases |a|
  {
    if a == [] {
      assert a + b == b;
    } else {
      assert (a + b)[1..] == a[1..] + b;
      AttemptCountAppend(a[1..], b);
    }
  }

  /** The three `if results[...]: save_recovered_files(...)` steps of `main`:
      the `.als`, `.alp` and keyword lists, in that order, each only when
      non-empty and each into its own subdirectory, created when missing.
      Failed copies are caught, so every found file is tried exactly once.
      `existing` is the set of directories present before the run. */
  function SaveAll(found: Buckets<Path>, outDir: Path, existing: set<Path>, copy: CopyOracle): (saves: seq<CategorySave>)
    ensures forall c :: found.Get(c) != [] <==> exists s :: s in saves && s.cat == c
    ensures forall s :: s in saves ==> SavedAs(s, found, outDir, existing, copy)
    ensures AttemptCount(saves) == found.Total()
  {
    var a := SaveCategory(found, Als, outDir, existing, copy);
    var b := SaveCategory(found, Alp, outDir, existing, copy);
    var k := SaveCategory(found, Keyword, outDir, existing, copy);
    AttemptCountAppend(a, b);
    AttemptCountAppend(a + b, k);
    CategoryAttempts(found, Als, outDir, existing, copy);
    CategoryAttempts(found, Alp, outDir, existing, copy);
    CategoryAttempts(found, Keyword, outDir, existing, copy);
    a + b + k
  }

  lemma CategoryAttempts(found: Buckets<Path>, c: Category, outDir: Path, existing: set<Path>, copy: CopyOracle)
    ensures AttemptCount(SaveCategory(found, c, outDir, existing, copy)) == |found.Get(c)|
  {
    var r := SaveCategory(found, c, outDir, existing, copy);
    if r != [] {
      assert r[1..] == [];
    }
  }

  /** `main`: the parallel scan, then the saves; an exception in the scan
      (unreadable scan directory, pool failure) ends the run with nothing
      saved. */
  function Main(scanDir: Dir, scanPath: Path, outDir: Path, keywords: seq<string>, poolFails: bool,
                existing: set<Path>, copy: CopyOracle): (r: Report)
    ensures r.ScanFailed? <==> !scanDir.readable || poolFails
    ensures r.Done? ==> r.found == Bucketize(WalkRoots(ScanRoots(scanDir, scanPath).value), Tagger(keywords))
    ensures r.Done? ==> r.saves == SaveAll(r.found, outDir, existing, copy)
    ensures r.Done? ==> AttemptCount(r.saves) == r.found.Total()
  {
    match ParallelScan(scanDir, scanPath, keywords, poolFails)
    case None => ScanFailed
    case Some(found) => Done(found, SaveAll(found, outDir, existing, copy))
  }
}

=== FILE: recover5.dfy ===
/** recover_als_files5.py: a permission-aware walk per top-level root, a
    header-first classifier with a non-empty keyword fallback, destinations
    that keep each file's path relative to the scan directory, and a copy
    phase that counts successes and failures. */
module RecoverV5 {
  import opened Basics
  import opened Tree
  import opened Paths
  import opened Header
  import opened Keywords
  import opened Buckets
  import opened Partition
  import opened Copying

  /** `is_als_or_alp_file`: the marker within the first 256 bytes, or the
      ZIP magic at the start; a file that cannot be read never matches. */
  function IsAlsOrAlpFile(f: File): (r: bool)
    ensures r <==> f.readable && (MarkerWithin(f.content, 256) || StartsWith(f.content, ZipMagic))
  {
    MarkerOrMagic(f, 256)
  }

  /** No name ends in both `.als` and `.alp`. */
  lemma ExtensionsExclusive(s: string)
    ensures !(EndsWith(s, ".als") && EndsWith(s, ".alp"))
  {
    if EndsWith(s, ".als") {
      assert s[|s| - 1] == 's';
    }
  }

  /** The branches of `_scan_worker` for one readable file: a header match
      goes to `alp` when the lower-cased name ends in `.alp` and to `als`
      otherwise, whatever the extension; without a header match a name
      containing some non-empty keyword goes to `keyword`. The extension
      alone never decides anything. */
  function Classify(f: File, keywords: seq<string>): (r: Option<Category>)
    ensures r == Some(Alp) <==> IsAlsOrAlpFile(f) && EndsWith(Lower(f.name), ".alp")
    ensures r == Some(Als) <==> IsAlsOrAlpFile(f) && !EndsWith(Lower(f.name), ".alp")
    ensures r == Some(Keyword) <==> !IsAlsOrAlpFile(f) && AnyNonEmpty(keywords, f.name)
    ensures r == None <==> !IsAlsOrAlpFile(f) && !AnyNonEmpty(keywords, f.name)
  {
    var isAbleton := IsAlsOrAlpFile(f);
    var isKeyword := AnyNonEmpty(keywords, f.name);
    ExtensionsExclusive(Lower(f.name));
    if isAbleton then
      if EndsWith(Lower(f.name), ".als") then Some(Als)
      else if EndsWith(Lower(f.name), ".alp") then Some(Alp)
      else Some(Als)
    else if isKeyword then Some(Keyword)
    else None
  }

  /** Without a header match, neither extension places a file in `als` or
      `alp`; with one, keywords play no part. */
  lemma HeaderDecidesFormat(f: File, keywords: seq<string>, other: seq<string>)
    ensures !IsAlsOrAlpFile(f) ==> Classify(f, keywords) != Some(Als) && Classify(f, keywords) != Some(Alp)
    ensures IsAlsOrAlpFile(f) ==> Classify(f, keywords) == Classify(f, other) != Some(Keyword)
  {
  }

  /** One found file: where it is and where it is copied to. */
  datatype Candidate = Candidate(src: Path, dst: Path)

  /** The `(file_path, output_path)` pair of a readable walked file, placed
      by `Classify`; a file failing `os.access(R_OK)` is skipped. The
      destination is the output directory joined with the path relative to
      the scan directory. */
  function Tagger(scanPath: Path, outPath: Path, keywords: seq<string>): (tag: Entry -> Option<Tag<Candidate>>)
    ensures forall e: Entry :: !e.file.readable ==> tag(e) == None
    ensures forall e: Entry, c, x :: tag(e) == Some(Tag(c, x)) <==>
              e.file.readable && Classify(e.file, keywords) == Some(c) && x == Candidate(e.path, Rebase(e.path, scanPath, outPath))
  {
    (e: Entry) =>
      if !e.file.readable then None
      else match Classify(e.file, keywords)
           case None => None
           case Some(c) => Some(Tag(c, Candidate(e.path, Rebase(e.path, scanPath, outPath))))
  }

  /** The entries of `es` that land in list `c` as candidate `x`. */
  ghost predicate FoundIn(es: seq<Entry>, scanPath: Path, outPath: Path, keywords: seq<string>, c: Category, x: Candidate) {
    exists e :: e in es && e.file.readable && Classify(e.file, keywords) == Some(c) &&
                x == Candidate(e.path, Rebase(e.path, scanPath, outPath))
  }

  /** `_scan_worker` on one root: each list holds exactly the readable walked
      files classified into it, and no file is listed twice. */
  function ScanWorker(root: Root, scanPath: Path, outPath: Path, keywords: seq<string>): (r: Buckets<Candidate>)
    ensures forall c, x :: x in r.Get(c) <==> FoundIn(Walk(root.dir, root.path), scanPath, outPath, keywords, c, x)
    ensures r.Total() <= |Walk(root.dir, root.path)|
    ensures !root.dir.readable ==> r == Empty()
  {
    Bucketize(Walk(root.dir, root.path), Tagger(scanPath, outPath, keywords))
  }

  /** The workers' results, root by root. */
  function WorkerResults(roots: seq<Root>, scanPath: Path, outPath: Path, keywords: seq<string>): (r: seq<Buckets<Candidate>>)
    ensures |r| == |roots|
    ensures forall i :: 0 <= i < |roots| ==> r[i] == ScanWorker(roots[i], scanPath, outPath, keywords)
  {
    ScanEach(roots, Tagger(scanPath, outPath, keywords))
  }

  /** How a process pool ran: it failed, or it handed back its results in
      the completion order that `picks` selects (see `Schedule`). */
  datatype PoolRun = PoolError | PoolDone(picks: seq<nat>)

  /** The scanning phase of `main`: partition, one worker per root (on a
      pool when more than one process is asked for, in completion order),
      and the per-list concatenation of the results. Listing an unreadable
      scan directory and a failing pool both end the run. */
  function ScanPhase(scanDir: Dir, scanPath: Path, outPath: Path, keywords: seq<string>, numProcesses: int, pool: PoolRun): (r: Option<Buckets<Candidate>>)
    ensures r.None? <==> !scanDir.readable || (numProcesses > 1 && pool.PoolError?)
  {
    match ScanRoots(scanDir, scanPath)
    case None => None
    case Some(roots) =>
      var results := WorkerResults(roots, scanPath, outPath, keywords);
      if numProcesses > 1 then
        match pool
        case PoolError => None
        case PoolDone(picks) => Some(Merge(Schedule(results, picks)))
      else Some(Merge(results))
  }

  /** Reference scan: one pass over everything the roots cover. */
  function ReferenceScan(scanDir: Dir, scanPath: Path, outPath: Path, keywords: seq<string>): (r: Option<Buckets<Candidate>>)
    ensures r.None? <==> !scanDir.readable
  {
    match ScanRoots(scanDir, scanPath)
    case None => None
    case Some(roots) => Some(Bucketize(WalkRoots(roots), Tagger(scanPath, outPath, keywords)))
  }

  /** Run sequentially the scan equals the reference scan; on a pool every
      list holds the same candidates as many times each, in some order, and
      the total is the same. */
  lemma ScanPhaseMatchesReference(scanDir: Dir, scanPath: Path, outPath: Path, keywords: seq<string>, numProcesses: int, pool: PoolRun)
    ensures var r, ref := ScanPhase(scanDir, scanPath, outPath, keywords, numProcesses, pool),
                          ReferenceScan(scanDir, scanPath, outPath, keywords);
            && (r.Some? ==> ref.Some?)
            && (r.Some? && numProcesses <= 1 ==> r == ref)
            && (r.Some? ==> r.value.Total() == ref.value.Total())
            && (r.Some? ==> forall c :: multiset(r.value.Get(c)) == multiset(ref.value.Get(c)))
  {
    var r := ScanPhase(scanDir, scanPath, outPath, keywords, numProcesses, pool);
    if r.Some? {
      var roots := ScanRoots(scanDir, scanPath).value;
      var tag := Tagger(scanPath, outPath, keywords);
      var results := WorkerResults(roots, scanPath, outPath, keywords);
      MergeOfWorkers(roots, tag);
      if numProcesses > 1 {
        var sched := Schedule(results, pool.picks);
        forall c ensures multiset(Merge(sched).Get(c)) == multiset(Merge(results).Get(c)) {
          MergeScheduled(results, pool.picks, c);
        }
        MergeScheduled(results, pool.picks, Als);
      }
    }
  }

  /** What the reference scan finds: exactly the readable files the roots
      walk, each in the list `Classify` names, once per walked entry. */
  lemma ReferenceScanFinds(scanDir: Dir, scanPath: Path, outPath: Path, keywords: seq<string>)
    requires scanDir.readable
    ensures var found := ReferenceScan(scanDir, scanPath, outPath, keywords).value;
            var walked := WalkRoots(ScanRoots(scanDir, scanPath).value);
            && (forall c, x :: x in found.Get(c) <==> FoundIn(walked, scanPath, outPath, keywords, c, x))
            && found.Total() <= |walked|
  {
    var tag := Tagger(scanPath, outPath, keywords);
    assert forall e, c, x :: tag(e) == Some(Tag(c, x)) <==>
             e.file.readable && Classify(e.file, keywords) == Some(c) && x == Candidate(e.path, Rebase(e.path, scanPath, outPath));
  }

  /** Every candidate lies below the scan directory and its destination is
      the rebased source. */
  lemma FoundCandidate(scanDir: Dir, scanPath: Path, outPath: Path, keywords: seq<string>, c: Category, x: Candidate)
    requires scanDir.readable
    requires x in ReferenceScan(scanDir, scanPath, outPath, keywords).value.Get(c)
    ensures StrictlyBelow(x.src, scanPath) && x.dst == Rebase(x.src, scanPath, outPath)
  {
    var roots := ScanRoots(scanDir, scanPath).value;
    ReferenceScanFinds(scanDir, scanPath, outPath, keywords);
    var e :| e in WalkRoots(roots) && e.file.readable && Classify(e.file, keywords) == Some(c) &&
             x == Candidate(e.path, Rebase(e.path, scanPath, outPath));
    ScanRootsBelowScanDir(scanDir, scanPath);
    WalkRootsBelow(roots, scanPath, e);
  }

  /** Destinations keep the tree: stripping the output directory from a
      destination gives the source's path below the scan directory, so two
      candidates of any lists with the same destination are the same file. */
  lemma DestinationsPreserveStructure(scanDir: Dir, scanPath: Path, outPath: Path, keywords: seq<string>,
                                      c1: Category, x: Candidate, c2: Category, y: Candidate)
    requires scanDir.readable
    requires x in ReferenceScan(scanDir, scanPath, outPath, keywords).value.Get(c1)
    requires y in ReferenceScan(scanDir, scanPath, outPath, keywords).value.Get(c2)
    ensures StrictlyBelow(x.dst, outPath) && scanPath + x.dst[|outPath|..] == x.src
    ensures x.dst == y.dst ==> x.src == y.src
  {
    FoundCandidate(scanDir, scanPath, outPath, keywords, c1, x);
    FoundCandidate(scanDir, scanPath, outPath, keywords, c2, y);
    RebaseRoundTrip(x.src, scanPath, outPath);
    if x.dst == y.dst {
      RebaseInjective(x.src, y.src, scanPath, outPath);
    }
  }

  /** An unreadable subdirectory of a root contributes nothing to the
      worker's lists: they are exactly the lists of the same root with that
      subdirectory taken away, so its readable siblings are scanned as
      before. */
  lemma UnreadableContributesNothing(d: Dir, p: Path, j: nat, scanPath: Path, outPath: Path, keywords: seq<string>)
    requires j < |d.subdirs| && !d.subdirs[j].readable
    ensures ScanWorker(Root(d, p), scanPath, outPath, keywords) ==
            ScanWorker(Root(d.(subdirs := d.subdirs[..j] + d.subdirs[j + 1..]), p), scanPath, outPath, keywords)
  {
    UnreadableSubtreeIsPruned(d.subdirs, j, p);
    var pruned := d.(subdirs := d.subdirs[..j] + d.subdirs[j + 1..]);
    assert Walk(d, p) == Walk(pruned, p);
  }

  /** `all_found_files['als'] + all_found_files['alp'] + all_found_files['keyword']`:
      every found candidate, as many times as it was found. */
  function ToSave(found: Buckets<Candidate>): (r: seq<Candidate>)
    ensures |r| == found.Total()
    ensures forall x :: x in r <==> exists c :: x in found.Get(c)
    ensures multiset(r) == multiset(found.Get(Als)) + multiset(found.Get(Alp)) + multiset(found.Get(Keyword))
  {
    var r := found.als + found.alp + found.keyword;
    assert forall x :: x in r ==> x in found.Get(Als) || x in found.Get(Alp) || x in found.Get(Keyword);
    r
  }

  /** The sequential loop `save_results.append(save_file(file_tuple))`:
      each candidate's outcome, the oracle's verdict on making the parent
      directories and copying, appended in list order. */
  function SequentialOutcomes(toSave: seq<Candidate>, copy: CopyOracle): (r: seq<bool>)
    ensures |r| == |toSave|
    ensures forall i :: 0 <= i < |r| ==> (r[i] <==> i in SucceedingCopies(toSave, copy))
    decreases |toSave|
  {
    if toSave == [] then []
    else
      var n := |toSave| - 1;
      assert forall i :: 0 <= i < n ==> toSave[..n][i] == toSave[i];
      SequentialOutcomes(toSave[..n], copy) + [copy(toSave[n].src, toSave[n].dst)]
  }

  /** Whether the copies go to a pool: more than one process and more files
      than processes. The ensures give consequences only; the converse is
      the body itself, the test of recover_als_files5.py:204. */
  function UsesSavePool(toSave: seq<Candidate>, numProcesses: int): (r: bool)
    ensures r ==> 2 <= numProcesses < |toSave|
    ensures r ==> |toSave| >= 3
    ensures numProcesses <= 1 ==> !r
  {
    numProcesses > 1 && |toSave| > numProcesses
  }

  /** `save_results`: the outcomes, in completion order on a pool, or the
      single `[False]` when the pool fails. */
  function SaveResults(toSave: seq<Candidate>, numProcesses: int, pool: PoolRun, copy: CopyOracle): (r: seq<bool>)
    ensures UsesSavePool(toSave, numProcesses) && pool.PoolError? ==> r == [false]
    ensures !(UsesSavePool(toSave, numProcesses) && pool.PoolError?) ==>
              multiset(r) == multiset(SequentialOutcomes(toSave, copy))
    ensures !UsesSavePool(toSave, numProcesses) ==> r == SequentialOutcomes(toSave, copy)
  {
    var outcomes := SequentialOutcomes(toSave, copy);
    if UsesSavePool(toSave, numProcesses) then
      match pool
      case PoolError => [false]
      case PoolDone(picks) =>
        ScheduleIsPermutation(outcomes, picks);
        Schedule(outcomes, picks)
    else outcomes
  }

  /** `successful_saves` and `failed_saves`. */
  datatype Tally = Tally(successes: nat, failures: nat)

  /** The counts of `main`: successes are the true results, failures the
      rest of the list. They always add up to the list's length; a failed
      pool reports no success; otherwise successes are the candidates whose
      copy the oracle lets through, whatever the completion order. */
  function Count(toSave: seq<Candidate>, numProcesses: int, pool: PoolRun, copy: CopyOracle): (t: Tally)
    ensures t.successes + t.failures == |toSave|
    ensures UsesSavePool(toSave, numProcesses) && pool.PoolError? ==> t.successes == 0
    ensures !(UsesSavePool(toSave, numProcesses) && pool.PoolError?) ==>
              t.successes == |SucceedingCopies(toSave, copy)|
  {
    var results := SaveResults(toSave, numProcesses, pool, copy);
    var s := CountTrue(results);
    SuccessesAreSucceedingCopies(toSave, copy);
    assert results == [false] ==> multiset(results)[true] == 0;
    Tally(s, |toSave| - s)
  }

  /** The number of `true` outcomes is the number of candidates whose copy
      succeeds. */
  lemma {:induction false} SuccessesAreSucceedingCopies(toSave: seq<Candidate>, copy: CopyOracle)
    ensures CountTrue(SequentialOutcomes(toSave, copy)) == |SucceedingCopies(toSave, copy)|
    decreases |toSave|
  {
    if toSave != [] {
      SuccessesAreSucceedingCopies(toSave[..|toSave| - 1], copy);
      OutcomesStep(toSave, copy);
      SucceedingCopiesStep(toSave, copy);
    }
  }

  lemma OutcomesStep(toSave: seq<Candidate>, copy: CopyOracle)
    requires toSave != []
    ensures var n := |toSave| - 1;
            CountTrue(SequentialOutcomes(toSave, copy)) ==
            CountTrue(SequentialOutcomes(toSave[..n], copy)) + (if copy(toSave[n].src, toSave[n].dst) then 1 else 0)
  {
    var n := |toSave| - 1;
    var o, o' := SequentialOutcomes(toSave, copy), SequentialOutcomes(toSave[..n], copy);
    assert o[..n] == o';
  }

  /** The positions of `toSave` whose copy succeeds. */
  function SucceedingCopies(toSave: seq<Candidate>, copy: CopyOracle): set<nat> {
    set i: nat | i < |toSave| && copy(toSave[i].src, toSave[i].dst)
  }

  lemma SucceedingCopiesStep(toSave: seq<Candidate>, copy: CopyOracle)
    requires toSave != []
    ensures var n := |toSave| - 1;
            |SucceedingCopies(toSave, copy)| ==
            |SucceedingCopies(toSave[..n], copy)| + (if copy(toSave[n].src, toSave[n].dst) then 1 else 0)
  {
    var n := |toSave| - 1;
    var S, S' := SucceedingCopies(toSave, copy), SucceedingCopies(toSave[..n], copy);
    if copy(toSave[n].src, toSave[n].dst) {
      assert S == S' + {n};
    } else {
      assert S == S';
    }
  }

  /** How a run of `main` ends once its directories are validated. */
  datatype Run =
    | Aborted
    | NoneFound
    | Finished(found: Buckets<Candidate>, toSave: seq<Candidate>, tally: Tally)

  /** `main` from the scan on. */
  function Main(scanDir: Dir, scanPath: Path, outPath: Path, keywords: seq<string>, numProcesses: int,
                scanPool: PoolRun, savePool: PoolRun, copy: CopyOracle): (r: Run)
    ensures r.Aborted? <==> ScanPhase(scanDir, scanPath, outPath, keywords, numProcesses, scanPool).None?
    ensures r.NoneFound? <==> (var s := ScanPhase(scanDir, scanPath, outPath, keywords, numProcesses, scanPool);
                               s.Some? && s.value.Total() == 0)
    ensures r.Finished? ==>
              && r.found == ScanPhase(scanDir, scanPath, outPath, keywords, numProcesses, scanPool).value
              && |r.toSave| == r.found.Total() > 0
              && (forall x :: x in r.toSave <==> exists c :: x in r.found.Get(c))
              && r.toSave == ToSave(r.found)
              && r.tally == Count(r.toSave, numProcesses, savePool, copy)
              && r.tally.successes + r.tally.failures == |r.toSave|
  {
    match ScanPhase(scanDir, scanPath, outPath, keywords, numProcesses, scanPool)
    case None => Aborted
    case Some(found) =>
      if found.Total() == 0 then NoneFound
      else
        var toSave := ToSave(found);
        Finished(found, toSave, Count(toSave, numProcesses, savePool, copy))
  }
}

/** A worked example: one file in each of three subdirectories of `src`. */
module RecoverV5Example {
  import opened Basics
  import opened Tree
  import opened Header
  import opened Keywords
  import opened Paths
  import opened Buckets
  import opened Partition
  import opened Copying
  import opened RecoverV5

  const Song := File("song.als", true, AlsMarker)
  const Mix := File("mix.zip", true, ZipMagic)
  const Demo := File("demo_somni.wav", true, [0])
  const DirA := Dir("A", true, [Song], [])
  const DirB := Dir("B", true, [Mix], [])
  const DirC := Dir("C", true, [Demo], [])
  const Src := Dir("src", true, [], [DirA, DirB, DirC])

  lemma ExampleClassification()
    ensures Classify(Song, ["Somni"]) == Some(Als)
    ensures Classify(Mix, ["Somni"]) == Some(Als)
    ensures Classify(Demo, ["Somni"]) == Some(Keyword)
  {
    ExampleSong();
    ExampleMix();
    ExampleDemo();
  }

  lemma ExampleSong()
    ensures Classify(Song, ["Somni"]) == Some(Als)
  {
    assert OccursAt(AlsMarker, Song.content, 0);
    assert Lower("song.als") == "song.als";
  }

  lemma ExampleMix()
    ensures Classify(Mix, ["Somni"]) == Some(Als)
  {
    assert StartsWith(Mix.content, ZipMagic);
    assert Lower("mix.zip") == "mix.zip";
  }

  lemma ExampleDemo()
    ensures Classify(Demo, ["Somni"]) == Some(Keyword)
  {
    assert !StartsWith(Demo.content, ZipMagic);
    assert Lower("demo_somni.wav") == "demo_somni.wav" && Lower("Somni") == "somni";
    assert OccursAt(Lower("Somni"), Lower("demo_somni.wav"), 5);
  }

  const Found := Buckets([Candidate(["src", "A", "song.als"], ["out", "A", "song.als"]),
                          Candidate(["src", "B", "mix.zip"], ["out", "B", "mix.zip"])],
                         [],
                         [Candidate(["src", "C", "demo_somni.wav"], ["out", "C", "demo_somni.wav"])])

  /** A marker file is `als` by content, a ZIP-magic `.zip` is also `als`
      (the header matched and the name does not end in `.alp`), and the
      keyword file is `keyword`; each destination mirrors its source under
      `out`. */
  lemma ExampleScan()
    ensures ScanPhase(Src, ["src"], ["out"], ["Somni"], 1, PoolError) == Some(Found)
  {
    ExampleRoots();
    ExampleWorkerResults();
    ExampleMerge();
  }

  /** Each subdirectory's worker finds its one file. */
  lemma ExampleWorkerResults()
    ensures WorkerResults([Root(DirA, ["src", "A"]), Root(DirB, ["src", "B"]), Root(DirC, ["src", "C"])], ["src"], ["out"], ["Somni"])
            == [Empty().Add(Als, Found.als[0]), Empty().Add(Als, Found.als[1]), Empty().Add(Keyword, Found.keyword[0])]
  {
    ExampleWorkerA();
    ExampleWorkerB();
    ExampleWorkerC();
    ThreeWorkers(Root(DirA, ["src", "A"]), Root(DirB, ["src", "B"]), Root(DirC, ["src", "C"]), ["src"], ["out"], ["Somni"]);
  }

  lemma ThreeWorkers(a: Root, b: Root, c: Root, scanPath: Path, outPath: Path, keywords: seq<string>)
    ensures WorkerResults([a, b, c], scanPath, outPath, keywords) ==
            [ScanWorker(a, scanPath, outPath, keywords), ScanWorker(b, scanPath, outPath, keywords), ScanWorker(c, scanPath, outPath, keywords)]
  {
    var roots := [a, b, c];
    var w := WorkerResults(roots, scanPath, outPath, keywords);
    assert roots[0] == a && roots[1] == b && roots[2] == c;
    assert w[0] == ScanWorker(a, scanPath, outPath, keywords);
    assert w[1] == ScanWorker(b, scanPath, outPath, keywords);
    assert w[2] == ScanWorker(c, scanPath, outPath, keywords);
  }

  /** The three subdirectories are the scan roots. */
  lemma ExampleRoots()
    ensures ScanRoots(Src, ["src"]) == Some([Root(DirA, ["src", "A"]), Root(DirB, ["src", "B"]), Root(DirC, ["src", "C"])])
  {
    var path := ["src"];
    assert Src.subdirs == [DirA, DirB, DirC] && DirA.name == "A" && DirB.name == "B" && DirC.name == "C";
    assert path + ["A"] == ["src", "A"] && path + ["B"] == ["src", "B"] && path + ["C"] == ["src", "C"];
    assert SubdirRoots(Src.subdirs, path) == [Root(DirA, ["src", "A"]), Root(DirB, ["src", "B"]), Root(DirC, ["src", "C"])];
  }

  lemma ExampleMerge()
    ensures Merge([Empty().Add(Als, Found.als[0]), Empty().Add(Als, Found.als[1]), Empty().Add(Keyword, Found.keyword[0])]) == Found
  {
    var ra, rb, rc := Empty().Add(Als, Found.als[0]), Empty().Add(Als, Found.als[1]), Empty().Add(Keyword, Found.keyword[0]);
    MergeThree(ra, rb, rc);
    assert ra.Extend(rb).Extend(rc) == Found;
  }

  lemma ExampleWorkerA()
    ensures ScanWorker(Root(DirA, ["src", "A"]), ["src"], ["out"], ["Somni"]) == Empty().Add(Als, Found.als[0])
  {
    ExampleSong();
    ExampleDestinations();
    assert DirA.files[0] == Song && ["src", "A"] + [Song.name] == ["src", "A", "song.als"];
    assert Found.als[0] == Candidate(["src", "A", "song.als"], ["out", "A", "song.als"]);
    OneFile(DirA, ["src", "A"], ["src"], ["out"], ["Somni"], Als);
  }

  lemma ExampleWorkerB()
    ensures ScanWorker(Root(DirB, ["src", "B"]), ["src"], ["out"], ["Somni"]) == Empty().Add(Als, Found.als[1])
  {
    ExampleMix();
    ExampleDestinations();
    assert DirB.files[0] == Mix && ["src", "B"] + [Mix.name] == ["src", "B", "mix.zip"];
    assert Found.als[1] == Candidate(["src", "B", "mix.zip"], ["out", "B", "mix.zip"]);
    OneFile(DirB, ["src", "B"], ["src"], ["out"], ["Somni"], Als);
  }

  lemma ExampleWorkerC()
    ensures ScanWorker(Root(DirC, ["src", "C"]), ["src"], ["out"], ["Somni"]) == Empty().Add(Keyword, Found.keyword[0])
  {
    ExampleDemo();
    ExampleDestinations();
    assert DirC.files[0] == Demo && ["src", "C"] + [Demo.name] == ["src", "C", "demo_somni.wav"];
    assert Found.keyword[0] == Candidate(["src", "C", "demo_somni.wav"], ["out", "C", "demo_somni.wav"]);
    OneFile(DirC, ["src", "C"], ["src"], ["out"], ["Somni"], Keyword);
  }

  lemma ExampleDestinations()
    ensures Rebase(["src", "A", "song.als"], ["src"], ["out"]) == ["out", "A", "song.als"]
    ensures Rebase(["src", "B", "mix.zip"], ["src"], ["out"]) == ["out", "B", "mix.zip"]
    ensures Rebase(["src", "C", "demo_somni.wav"], ["src"], ["out"]) == ["out", "C", "demo_somni.wav"]
  {
    assert StrictlyBelow(["src", "A", "song.als"], ["src"]);
    assert StrictlyBelow(["src", "B", "mix.zip"], ["src"]);
    assert StrictlyBelow(["src", "C", "demo_somni.wav"], ["src"]);
  }

  /** With every copy succeeding the run saves all three and reports no
      failure. */
  lemma Example()
    ensures var run := Main(Src, ["src"], ["out"], ["Somni"], 1, PoolError, PoolError, AllSucceed);
            run.Finished? && run.found == Found && run.tally == Tally(3, 0)
  {
    ExampleScan();
    ExampleTally();
  }

  const AllSucceed: CopyOracle := (s: Path, d: Path) => true

  /** With every copy succeeding, all three candidates are counted as saved. */
  lemma ExampleTally()
    ensures Found.Total() == 3
    ensures Count(ToSave(Found), 1, PoolError, AllSucceed) == Tally(3, 0)
  {
    var toSave := ToSave(Found);
    assert |toSave| == 3;
    assert SucceedingCopies(toSave, AllSucceed) == {0, 1, 2};
  }

  /** A root holding one file, classified `cat`, yields that one candidate. */
  lemma OneFile(d: Dir, rootPath: Path, path: Path, out: Path, kws: seq<string>, cat: Category)
    requires d.readable && d.subdirs == [] && |d.files| == 1 && d.files[0].readable
    requires Classify(d.files[0], kws) == Some(cat)
    ensures var p := rootPath + [d.files[0].name];
            ScanWorker(Root(d, rootPath), path, out, kws) == Empty().Add(cat, Candidate(p, Rebase(p, path, out)))
  {
    var e := Entry(rootPath + [d.files[0].name], d.files[0]);
    assert Walk(d, rootPath) == [e];
    assert [e][..0] == [];
  }

  lemma MergeThree<T(!new)>(x: Buckets<T>, y: Buckets<T>, z: Buckets<T>)
    ensures Merge([x, y, z]) == x.Extend(y).Extend(z)
  {
    assert [x, y, z] == [x, y] + [z];
    MergeAppend([x, y], [z]);
    assert [x, y] == [x] + [y];
    MergeAppend([x], [y]);
    MergeSingle(x);
    MergeSingle(y);
    MergeSingle(z);
  }
}

=== FILE: tree.dfy ===
/** The filesystem as the scanners see it through `os.walk`: a directory
    lists its files and its subdirectories separately, every node carries a
    readable flag standing for the `os.access(..., os.R_OK)` answer, and
    files carry their byte content. Paths are sequences of components;
    `os.path.join` is concatenation. */
module Tree {
  import opened Basics

  type Path = seq<string>

  datatype File = File(name: string, readable: bool, content: seq<byte>)

  datatype Dir = Dir(name: string, readable: bool, files: seq<File>, subdirs: seq<Dir>)

  /** One `(os.path.join(root, file), file)` produced by the walk. */
  datatype Entry = Entry(path: Path, file: File)

  /** `e` was found strictly below `dir`: its path extends `dir` and ends
      with the file's own name. */
  predicate Below(e: Entry, dir: Path) {
    |dir| < |e.path| && e.path[..|dir|] == dir && e.path[|e.path| - 1] == e.file.name
  }

  /** The entries for the files listed in one directory, in listing order. */
  function FileEntries(fs: seq<File>, dir: Path): (r: seq<Entry>)
    ensures forall e :: e in r ==> Below(e, dir)
  {
    seq(|fs|, i requires 0 <= i < |fs| => Entry(dir + [fs[i].name], fs[i]))
  }

  /** Top-down `os.walk(path)`: the files of `d` first, then each
      subdirectory in listing order. A directory that cannot be read yields
      nothing (v5 prunes it with `os.access`; the earlier scripts get the same
      effect from `os.walk` ignoring the listing error). Unreadable files are
      still listed; it is up to the caller to skip them. */
  function Walk(d: Dir, path: Path): (r: seq<Entry>)
    ensures forall e :: e in r ==> Below(e, path)
    ensures !d.readable ==> r == []
    decreases d
  {
    if !d.readable then []
    else
      FileEntries(d.files, path) + WalkAll(d.subdirs, path)
  }

  /** The walks of sibling directories `ds` of `path`, concatenated in order. */
  function WalkAll(ds: seq<Dir>, path: Path): (r: seq<Entry>)
    ensures forall e :: e in r ==> Below(e, path)
    decreases ds
  {
    if ds == [] then []
    else
      var sub := path + [ds[0].name];
      var r := Walk(ds[0], sub) + WalkAll(ds[1..], path);
      assert forall e :: e in Walk(ds[0], sub) ==> Below(e, path) by {
        forall e | e in Walk(ds[0], sub)
          ensures Below(e, path)
        {
          assert e.path[..|sub|][..|path|] == e.path[..|path|];
        }
      }
      r
  }

  /** Reference meaning of the walk: `e` is a file listed in `d` or, through a
      chain of readable directories, in one of its descendants, and `d`
      itself is readable. */
  ghost predicate Visible(d: Dir, path: Path, e: Entry)
    decreases d
  {
    d.readable &&
    ((exists i :: 0 <= i < |d.files| && e == Entry(path + [d.files[i].name], d.files[i])) ||
     (exists j :: 0 <= j < |d.subdirs| && Visible(d.subdirs[j], path + [d.subdirs[j].name], e)))
  }

  /** The walk yields exactly the visible files. */
  lemma {:induction false} WalkIsVisible(d: Dir, path: Path, e: Entry)
    ensures e in Walk(d, path) <==> Visible(d, path, e)
    decreases d
  {
    if d.readable {
      var fe := FileEntries(d.files, path);
      assert e in fe <==> exists i :: 0 <= i < |d.files| && e == Entry(path + [d.files[i].name], d.files[i]) by {
        if e in fe {
          var i :| 0 <= i < |fe| && fe[i] == e;
          assert e == Entry(path + [d.files[i].name], d.files[i]);
        }
        if exists i :: 0 <= i < |d.files| && e == Entry(path + [d.files[i].name], d.files[i]) {
          var i :| 0 <= i < |d.files| && e == Entry(path + [d.files[i].name], d.files[i]);
          assert fe[i] == e;
        }
      }
      WalkAllIsVisible(d.subdirs, path, e);
    }
  }

  /** The walk of siblings yields exactly what is visible in one of them. */
  lemma {:induction false} WalkAllIsVisible(ds: seq<Dir>, path: Path, e: Entry)
    ensures e in WalkAll(ds, path) <==>
            exists j :: 0 <= j < |ds| && Visible(ds[j], path + [ds[j].name], e)
    decreases ds
  {
    if ds != [] {
      WalkIsVisible(ds[0], path + [ds[0].name], e);
      WalkAllIsVisible(ds[1..], path, e);
      if exists j :: 0 <= j < |ds| && Visible(ds[j], path + [ds[j].name], e) {
        var j :| 0 <= j < |ds| && Visible(ds[j], path + [ds[j].name], e);
        if j > 0 {
          assert ds[1..][j - 1] == ds[j];
        }
      }
      if exists j :: 0 <= j < |ds[1..]| && Visible(ds[1..][j], path + [ds[1..][j].name], e) {
        var j :| 0 <= j < |ds[1..]| && Visible(ds[1..][j], path + [ds[1..][j].name], e);
        assert ds[j + 1] == ds[1..][j];
      }
    }
  }

  /** Walking siblings distributes over concatenation of the sibling list. */
  lemma {:induction false} WalkAllAppend(a: seq<Dir>, b: seq<Dir>, path: Path)
    ensures WalkAll(a + b, path) == WalkAll(a, path) + WalkAll(b, path)
    decreases a
  {
    if a != [] {
      assert (a + b)[0] == a[0];
      assert (a + b)[1..] == a[1..] + b;
      WalkAllAppend(a[1..], b, path);
    } else {
      assert a + b == b;
    }
  }

  /** An unreadable subdirectory contributes exactly as much as an absent
      one: nothing beneath it is walked, and every sibling is walked as
      before. */
  lemma UnreadableSubtreeIsPruned(ds: seq<Dir>, j: nat, path: Path)
    requires j < |ds| && !ds[j].readable
    ensures WalkAll(ds, path) == WalkAll(ds[..j] + ds[j + 1..], path)
  {
    assert ds == ds[..j] + ([ds[j]] + ds[j + 1..]);
    WalkAllAppend(ds[..j], [ds[j]] + ds[j + 1..], path);
    WalkAllAppend([ds[j]], ds[j + 1..], path);
    WalkAllAppend(ds[..j], ds[j + 1..], path);
    assert WalkAll([ds[j]], path) == [] by {
      assert [ds[j]][1..] == [];
    }
  }

  /** The paths of the walked entries that `keep` accepts, in walk order:
      the `for file in files: if ...: found.append(path)` loop. */
  function Select(es: seq<Entry>, keep: Entry -> bool): (r: seq<Path>)
    ensures |r| <= |es|
    ensures forall p :: p in r <==> exists e :: e in es && keep(e) && e.path == p
  {
    if es == [] then []
    else
      assert forall e :: e in es <==> e == es[0] || e in es[1..];
      (if keep(es[0]) then [es[0].path] else []) + Select(es[1..], keep)
  }

  /** A single entry contributes its path exactly when it is kept. */
  lemma SelectOne(e: Entry, keep: Entry -> bool)
    ensures Select([e], keep) == if keep(e) then [e.path] else []
  {
    assert [e][1..] == [];
  }

  /** The filter works entry by entry in walk order: the paths kept from two
      walks in sequence are those kept from the first, then those kept from
      the second. */
  lemma {:induction false} SelectAppend(a: seq<Entry>, b: seq<Entry>, keep: Entry -> bool)
    ensures Select(a + b, keep) == Select(a, keep) + Select(b, keep)
    decreases |a|
  {
    if a != [] {
      assert (a + b)[1..] == a[1..] + b;
      SelectAppend(a[1..], b, keep);
    } else {
      assert a + b == b;
    }
  }
}
